=== FILE: README.md ===
# hls-vodtovod: the merge engine of `HLSVod`, in Dafny

`HLSVod` is meant to concatenate several HLS VODs into one. It takes a list of master
playlists. For each bandwidth ladder step present in every VOD, it is meant to produce
one media playlist that plays the VODs back to back, with a discontinuity marker at
every seam, and a master playlist listing one stream per surviving bandwidth.
The code does something different on two points, both shown under "Findings". It keeps
a ladder step whenever its bucket holds as many renditions as there are VODs, even
when one VOD contributes two and another none. And it plays the first VOD twice, adding
no discontinuity marker at the seam between the two copies.

The project models the engine of `src/index.ts` as pure functions over already-loaded data:

- `Nearest` models `findNearestBw`. It sorts the keys in descending order and reduces them,
  keeping the current best unless a later key is strictly nearer.
- `Resolve` covers the base URL of a master URI (up to its last `/`), the fetch of each
  rendition from `baseUrl + streamUri`, and the prefixing of segment URIs.
- `Buckets` models the bucketing. The first source seeds one bucket per bandwidth, and a
  repeated bandwidth resets its bucket. Every later rendition is appended to the bucket with
  the nearest key, ties going to the larger key. `Object.keys` order on integer-like keys is
  ascending numeric order (`SortedKeys`).
- `Timeline` models the merge fold of a bucket. As written, the fold starts from the first
  playlist and also appends it in its first round, so the result is `S0 ++ S0 ++ S1' ++ …`,
  where each `Si'` has its first segment flagged as a discontinuity. The target duration is
  the ceiling of the largest segment duration. `MergeIntended` is the corrected fold,
  `S0 ++ S1' ++ …`.
- `Vod` models the finishing pass over the buckets in ascending key order: validation, merge
  and renaming of the first member's stream to `manifest_<bw>.m3u8`. It also covers the
  `concat` run on a fresh instance and the accessors `getVariant`, `getBandwidths`,
  `getMultiVariant` and `toString`. A `Policy` selects either the pass as written or the
  evidently intended one.
- `Findings` exhibits the two discrepancies listed below on concrete inputs and proves the
  corrected behaviour.
- `Model`, `Text` and `Wrappers` hold the entities, decimal rendering, the layout of
  newline-terminated text blocks, and `Option`/`Result`.

The loader is a parameter, `fetch: string -> Media`: the playlist it returns for a URI. The
m3u8 serialiser's text for one stream item is a parameter `render: StreamItem -> string`.
That text is the `#EXT-X-STREAM-INF` tag line and the URI line, so it may hold newlines of
its own. Besides loader failures, the code throws in three places. The model returns `Err`
there; the instance state a throw leaves behind is listed under "Left out":

- `findNearestBw` on an empty key list, i.e. the first source has no streams and a later one has some;
- `PlaylistItem[0]` of an empty later playlist;
- the `reduce` over an empty merged segment list.

Two further cases also follow the code rather than adding preconditions:

- A master URI without `/` (or with a line terminator, which the regular expression's `.`
  does not match) leaves `baseUrl` undefined. JavaScript then prefixes the text `undefined`,
  and the model does the same rather than excluding such URIs.
- Empty key lists and empty playlists are modelled as the error paths above, not as preconditions.

## Model

| member | source | states |
|---|---|---|
| Nearest.FindNearest | src/index.ts:10-15 | The result is one of the keys, no key is strictly nearer to `bw`, no equally near key is larger, and `bw` itself is returned when it is a key |
| Nearest.Pick | src/index.ts:13 | The reducer returns one of its two candidates, at least as near to `bw` as either, and keeps the earlier one on a tie |
| Nearest.Reduce | src/index.ts:12-14 | The fold returns its seed or one of the visited keys, and is at least as near to `bw` as the seed and as every visited key |
| Nearest.ReduceKeepsLargestTie | src/index.ts:11-14 | On a descending list whose keys do not exceed the seed, no key as near as the result is larger than it (ties go to the larger key because only a strictly nearer key replaces the best) |
| Nearest.SortDescending | src/index.ts:11 | The sorted list is descending and a permutation of the keys |
| Nearest.NearestUnique | src/index.ts:10-15 | At most one key is nearest with the larger-key tie rule |
| Nearest.FindNearestOrderFree | src/index.ts:10-15 | The search result depends only on the set of keys, not on the order `Object.keys` lists them in |
| Resolve.BaseUrl | src/index.ts:68-72 | When the expression matches, the base URL is a non-empty prefix of the master URI ending in `/` with no `/` after it in the URI; otherwise it is the text `undefined` |
| Resolve.BaseUrlOfResolved | src/index.ts:68-74 | Deriving the base URL of a URI resolved against a base URL, with a name free of `/`, gives back the same base URL |
| Resolve.PrefixMedia | src/index.ts:75-78 | Every segment URI gains the base URL as a prefix; segment count, other segment fields and playlist attributes are unchanged |
| Resolve.LoadSource | src/index.ts:73-78 | One rendition per stream entry, in stream order, each tagged with its source index and stream entry and holding as many segments as the playlist fetched from `baseUrl + streamUri` |
| Resolve.LoadSourceResolves | src/index.ts:73-78 | Rendition `j` of a source keeps its stream entry and source index and carries the playlist fetched from `baseUrl + streamUri`, each segment URI prefixed and every other field unchanged |
| Buckets.SortedKeys | src/index.ts:90 | The enumeration is strictly ascending and lists exactly the keys of the set |
| Buckets.AscendingUnique | src/index.ts:90 | Two strictly ascending lists of the same keys are equal, so the enumeration order is determined |
| Buckets.Seed | src/index.ts:83-86 | The first source yields one bucket per distinct bandwidth, each holding a single rendition of that bandwidth taken from the source |
| Buckets.SeedKeepsLast | src/index.ts:84-85 | For a repeated bandwidth, the bucket holds the last rendition with that bandwidth |
| Buckets.Target | src/index.ts:81 | A later rendition goes to an existing key that is nearest to its bandwidth, ties to the larger key |
| Buckets.RoutedMembers | src/index.ts:80-82 | A rendition is routed to key `k` exactly when it is among the later renditions and `k` is its nearest key |
| Buckets.AssignAll | src/index.ts:80-82 | Assigning the later renditions succeeds exactly when a bucket exists or nothing is left to assign; it never adds or removes keys; the error names the first rendition's bandwidth |
| Buckets.Place | src/index.ts:81-82 | One rendition is appended to the bucket of its nearest key and every other bucket is unchanged |
| Buckets.AssignAllRoutes | src/index.ts:79-87 | Each bucket ends up as its seed followed by exactly the later renditions routed to it, in source then stream order |
| Buckets.RoutingPartitions | src/index.ts:80-82 | Summed over all keys, the routed lists account for every later rendition exactly once |
| Buckets.Align | src/index.ts:67-89 | Bucketing fails exactly when the first source offers no bandwidth and some later source has a rendition; on success the keys are exactly the first source's bandwidths |
| Buckets.AlignShape | src/index.ts:79-87 | A bucket is never empty and starts with the seed rendition of its own bandwidth, followed by the routed later renditions |
| Buckets.AlignMembersFromSources | src/index.ts:79-87 | Every bucket member is a rendition of the source its index names |
| Timeline.MarkFirst | src/index.ts:102 | Flagging the first segment keeps the length and total duration |
| Timeline.MarkFirstAt | src/index.ts:102 | Only the first segment changes, and only by gaining the discontinuity flag |
| Timeline.Joined | src/index.ts:101-104 | Appending the flagged later playlists gives as many segments and as much duration as the playlists hold together |
| Timeline.JoinedAt | src/index.ts:101-104 | Segment `p` of member `j` sits at the offset of the members before it, flagged exactly when `p` is 0 |
| Timeline.FirstEmpty | src/index.ts:102 | Finds the first member with an empty playlist, or reports that none is empty |
| Timeline.MaxDuration | src/index.ts:106-108 | The reduce returns a segment duration that no segment duration exceeds |
| Timeline.Merge | src/index.ts:94-109 | The fold as written fails exactly on an empty later playlist (naming it) or an empty result; on success it has twice the first playlist's segments plus the later ones, the first playlist's duration twice plus the others once, the first playlist's attributes, and a target duration that covers every segment and is less than the largest duration plus one |
| Timeline.MergeLayout | src/index.ts:95-105 | Position by position, the merged list is the first playlist, the first playlist again, then each later playlist unchanged except that its first segment is flagged |
| Timeline.MergeIntended | src/index.ts:94-109 | The corrected fold has the same failure condition, the members' segment count and total duration, the first playlist's attributes and a covering target duration |
| Timeline.MergeRepeatsFirstPlaylist | src/index.ts:97-104 | Both folds fail on the same inputs; on success the written fold is the intended one with the first playlist put in front once more, and the target duration is the same |
| Timeline.TargetCoversUnique | src/index.ts:106-109 | The target duration is determined by the set of segment durations |
| Model.Ceil | src/index.ts:109 | `Math.ceil`: the least integer not below the argument |
| Model.TotalDurationAppend | src/index.ts:104 | Total duration is additive over concatenation |
| Model.Decimal | src/index.ts:99 | A bandwidth's decimal text is non-empty, all digits and has no leading zero |
| Model.ParseDecimalOfDecimal | src/index.ts:46 | Reading a bandwidth's decimal text back gives the bandwidth |
| Model.DecimalInjective | src/index.ts:99 | Different bandwidths have different decimal texts |
| Vod.ManifestName | src/index.ts:99 | The name is `manifest_`, a decimal numeral that reads back to the bandwidth, then `.m3u8` |
| Vod.ManifestNameInjective | src/index.ts:99 | Two surviving bandwidths share a variant playlist name only if they are equal |
| Vod.Survives | src/index.ts:91 | Surviving needs as many members as sources; as written, that count alone suffices; the corrected check holds exactly when the count matches and member `i` comes from source `i`, so members come from distinct sources in ascending order |
| Vod.Finish | src/index.ts:90-112 | On success the finishing pass keeps exactly the visited keys whose bucket passes validation |
| Vod.FinishFails | src/index.ts:90-112 | The pass fails exactly when some surviving bucket's fold fails |
| Vod.FinishMerges | src/index.ts:94-110 | Each surviving bandwidth maps to its own bucket's merged playlist |
| Vod.FinishStreams | src/index.ts:99-100 | The stream list holds, for each surviving bandwidth in ascending order, the first member's stream renamed to its manifest name |
| Vod.BucketsOf | src/index.ts:79-87 | No bucket of a run is empty |
| Vod.Run | src/index.ts:64-113 | A run fails when bucketing fails; on success it keeps exactly the buckets that pass the policy's check |
| Vod.RunFacts | src/index.ts:64-113 | A successful run keeps exactly the validated buckets, maps each to its merged playlist and lists their renamed streams in ascending order |
| Vod.RunFails | src/index.ts:64-113 | A run fails exactly when bucketing fails or a surviving bucket's fold fails |
| Vod.Concat | src/index.ts:64-113 | `concat` fails when bucketing fails; on success it keeps exactly the buckets that hold as many renditions as there are sources |
| Vod.ConcatKeysFromFirstSource | src/index.ts:83-85 | Every surviving bandwidth is offered by the first source |
| Vod.ConcatStreams | src/index.ts:99-100 | The stream list `getMultiVariant` returns has one entry per surviving bandwidth, in ascending order, carrying that bandwidth and the URI `manifest_<bw>.m3u8` |
| Vod.ConcatTargetsCover | src/index.ts:106-109 | Every variant's target duration covers each of its segments and is below the largest duration plus one |
| Vod.ConcatSurvivors | src/index.ts:90-93 | A bandwidth survives exactly when its bucket holds as many renditions as there are sources, and its variant is that bucket's merged playlist |
| Vod.ConcatFails | src/index.ts:64-113 | `concat` fails exactly when bucketing fails or a bucket of full size fails to merge |
| Vod.GetVariant | src/index.ts:41-43 | The lookup finds a playlist exactly for a stored bandwidth, and it is that bandwidth's stored playlist |
| Vod.GetVariantPresence | src/index.ts:41-43 | `getVariant` finds a playlist exactly for surviving bandwidths, and never for one the first source does not offer |
| Vod.GetBandwidths | src/index.ts:45-47 | One key string per variant |
| Vod.GetBandwidthsListsVariants | src/index.ts:45-47 | The key strings are decimal numerals that read back to exactly the surviving bandwidths, each once, in ascending order |
| Vod.GetMultiVariant | src/index.ts:49-51 | Returns the stored stream list as it is; its contents after `concat` are stated by Vod.ConcatStreams, which is phrased over this accessor |
| Vod.ToString | src/index.ts:53-62 | The master playlist text starts with the three fixed header lines and ends with a newline; Vod.ToStringLayout places every stream in it |
| Vod.ToStringLayout | src/index.ts:53-62 | Position by position, the master playlist text starts with the three fixed header lines; stream `j`'s text follows at the header length plus the lengths of the earlier streams' texts, each counted with its newline; each stream's text is followed by a newline; the total length is the header plus all of them, so the text ends with a newline |
| Text.BlockAt | src/index.ts:58-60 | In the appended stream text, item `j` sits at the summed length of the earlier items plus one newline each, and a newline follows it |
| Text.BlocksLength | src/index.ts:58-60 | The appended stream text is exactly as long as all items with one newline each |
| Text.BlocksEndWithNewline | src/index.ts:59 | Text of at least one stream ends with the newline appended after the last stream |
| Findings.SelfConcatExample | src/index.ts:97-104 | Two one-segment ten-second sources merge into three segments and thirty seconds as written, and into two segments and twenty seconds under the corrected fold |
| Findings.IntendedMergePlaysEachOnce | src/index.ts:94-105 | The corrected fold plays every member once: its segment count and duration are the members' totals, and it starts with the first playlist |
| Findings.CountOnlyExample | src/index.ts:90-93 | For the shown ladders, bandwidth 100 survives as written although its bucket holds sources 0, 1, 1; the corrected check keeps no variant |
| Findings.IntendedSurvivors | src/index.ts:90-93 | Under the corrected check, a surviving bucket holds exactly one rendition of each source in source order, and its variant has their segment count and total duration |
| Findings.IntendedKeepsExample | src/index.ts:90-110 | Two VODs each offering one bandwidth-100 rendition of one ten-second segment: the corrected pass succeeds, keeps exactly bandwidth 100, and its variant has two segments and twenty seconds |
| Findings.LaddersInhabited | src/index.ts:64-93 | The ladders of the count-only example are met by concrete master playlists and a loader that never returns an empty playlist |

## Left out

- Loading (`load`, `loader.load`, `HTTPManifestLoader`): asynchronous network and file I/O. The loader is the parameter `fetch`, and its failures are not modelled.
- A loader that caches and hands out the same playlist object for two requests: objects are values here, so the aliasing such a loader would cause in lines 102-104 is not modelled.
- The `@eyevinn/m3u8` parser and serialiser: an external library. A stream's rendered text is the parameter `render`. Playlist attributes other than the target duration, stream attributes other than bandwidth and URI, and segment tags other than URI, duration, discontinuity and title are opaque maps that are carried along unchanged.
- Audio groups and languages, EXT-X-DATERANGE and program-date-time stamping, and URI-formatter arguments to `getMultiVariant`/`toString`: `src/index.ts` does not implement them.
- Floating point: durations are `real`, so IEEE-754 rounding of sums and of duration text is not modelled.
- Accumulation of `this.streams` and `this.variants` across repeated `load` calls: the model runs `concat` once on a fresh instance.
- Bandwidth keys are natural numbers, and enumeration is ascending numeric order. JavaScript orders integer-like keys only up to 2^32 - 2 before insertion order takes over; larger bandwidths are not modelled.
- `example.js`: a console demo.
- Nearest.FindNearest: requires a non-empty key list. The source throws on an empty one, and that throw is modelled one level up: Buckets.AssignAll returns `NoBucketToMatch` when no bucket exists.
- Timeline.Merge and Timeline.MergeIntended: require a non-empty bucket. Every bucket starts with its seed rendition (Buckets.AlignShape), so the fold is never reached with an empty one.
- Vod.Run: when the pass throws, the model returns only the error, not the instance state left behind. The source throws at line 102 or 108 while merging one bucket. By then, lines 99-100 have already renamed that bucket's first stream and pushed it onto `this.streams`. Every smaller surviving bucket is already stored in `this.variants` (line 110). A caller that catches the rejected `load` therefore sees a stream list naming `manifest_<bw>.m3u8` for a bandwidth that `getVariant` lacks. A throw during bucketing (line 81) leaves the instance untouched.
- Vod.GetVariantPresence: the bandwidth argument is a natural number. `getVariant` looks up a plain object with whatever it is given, so a string argument such as `"constructor"`, `"toString"` or `"__proto__"` yields a member of `Object.prototype` rather than nothing. Only numeric arguments are modelled.
- Stream entries without a `BANDWIDTH` attribute: the model gives every stream a natural-number bandwidth, so JavaScript's arithmetic on `undefined` is not modelled.

## Findings

| source | as written | input that shows it | evidently intended | confidence | as-written member | corrected member |
|---|---|---|---|---|---|---|
| src/index.ts:104 | The concatenation also runs in the first round, when the accumulator is the first playlist itself, so the merged playlist plays the first VOD twice | Two sources, each with one bandwidth-100 stream whose playlist is one ten-second segment: the merged playlist has three segments and thirty seconds | Each VOD played once: `S0 ++ S1' ++ …`, two segments and twenty seconds here | not executed | Timeline.Merge, Findings.SelfConcatExample | Timeline.MergeIntended, Findings.IntendedMergePlaysEachOnce |
| src/index.ts:91 | A bucket survives when its member count equals the number of sources, whichever sources the members come from | Three sources with ladders {100, 1000}, {100, 110} and {1000}: bucket 100 collects source 0's rendition and both of source 1's, has three members and survives, so its variant plays source 1 twice and source 2 not at all | A bucket survives only with exactly one rendition of each source, in source order; no variant survives here | not executed | Vod.Survives, Findings.CountOnlyExample | Vod.Run, Findings.IntendedSurvivors, Findings.IntendedKeepsExample |

=== FILE: buckets.dfy ===
/** The bandwidth buckets of `concat` (src/index.ts:66, 79-87): an object keyed by
    bandwidth whose values are the renditions collected for that bandwidth. */
module Buckets {
  import opened Wrappers
  import opened Model
  import Nearest

  type Buckets = map<nat, seq<Member>>

  ghost predicate StrictlyAscending(s: seq<nat>)
  {
    forall i, j :: 0 <= i < j < |s| ==> s[i] < s[j]
  }

  predicate IsMin(s: set<nat>, m: nat)
  {
    m in s && forall y :: y in s ==> m <= y
  }

  lemma {:induction false} MinExists(s: set<nat>)
    requires s != {}
    ensures exists m :: IsMin(s, m)
    decreases |s|
  {
    var x :| x in s;
    if s == {x} {
      assert IsMin(s, x);
    } else {
      var rest := s - {x};
      assert |rest| < |s|;
      MinExists(rest);
      var m :| IsMin(rest, m);
      var best := if x < m then x else m;
      forall y | y in s ensures best <= y {
        if y != x { assert y in rest; }
      }
      assert IsMin(s, best);
    }
  }

  function Min(s: set<nat>): (m: nat)
    requires s != {}
    ensures IsMin(s, m)
  {
    MinExists(s);
    var m :| IsMin(s, m);
    m
  }

  /** `Object.keys` of an object whose keys are integer-like: ascending numeric order. */
  function SortedKeys(s: set<nat>): (r: seq<nat>)
    ensures StrictlyAscending(r)
    ensures forall k :: k in r <==> k in s
    ensures |r| == |s|
    decreases |s|
  {
    if s == {} then []
    else
      var m := Min(s);
      var rest := SortedKeys(s - {m});
      [m] + rest
  }

  /** Two ascending enumerations of the same keys are the same list. */
  lemma {:induction false} AscendingUnique(a: seq<nat>, b: seq<nat>)
    requires StrictlyAscending(a) && StrictlyAscending(b)
    requires forall k :: k in a <==> k in b
    ensures a == b
    decreases |a|
  {
    if a != [] { assert a[0] in b; }
    if b != [] { assert b[0] in a; }
    if a != [] {
      var i :| 0 <= i < |b| && b[i] == a[0];
      var j :| 0 <= j < |a| && a[j] == b[0];
      assert a[0] == b[0];
      forall k ensures k in a[1..] <==> k in b[1..] {
        AscendingTailMember(a, b, k);
        AscendingTailMember(b, a, k);
      }
      AscendingUnique(a[1..], b[1..]);
      assert a == [a[0]] + a[1..] && b == [b[0]] + b[1..];
    }
  }

  lemma AscendingTailMember(a: seq<nat>, b: seq<nat>, k: nat)
    requires StrictlyAscending(a) && StrictlyAscending(b)
    requires forall k :: k in a <==> k in b
    requires a != [] && b != [] && a[0] == b[0]
    ensures k in a[1..] ==> k in b[1..]
  {
    if k in a[1..] {
      var p :| 0 <= p < |a[1..]| && a[1..][p] == k;
      assert a[p + 1] == k && k > a[0];
      assert k in b;
      var q :| 0 <= q < |b| && b[q] == k;
      assert q != 0;
      assert b[1..][q - 1] == k;
    }
  }

  /** Adding a key above every existing one appends it to the enumeration. */
  lemma SortedKeysAddLargest(s: set<nat>, k: nat)
    requires forall y :: y in s ==> y < k
    ensures SortedKeys(s + {k}) == SortedKeys(s) + [k]
  {
    var a := SortedKeys(s + {k});
    var b := SortedKeys(s) + [k];
    assert forall x :: x in b <==> x in s + {k};
    assert StrictlyAscending(b) by {
      var prev := SortedKeys(s);
      forall i, j | 0 <= i < j < |b| ensures b[i] < b[j] {
        if j == |b| - 1 { assert b[i] == prev[i] && prev[i] in s; }
        else { assert b[i] == prev[i] && b[j] == prev[j]; }
      }
    }
    AscendingUnique(a, b);
  }

  /** Bandwidths offered by a list of renditions. */
  function Bandwidths(ms: seq<Member>): set<nat>
  {
    set j | 0 <= j < |ms| :: ms[j].stream.bandwidth
  }

  /** The first source seeds the buckets (lines 83-85): one bucket per bandwidth,
      holding a single rendition of that bandwidth. */
  function Seed(ms: seq<Member>): (b: Buckets)
    ensures b.Keys == Bandwidths(ms)
    ensures forall k :: k in b ==> |b[k]| == 1 && b[k][0].stream.bandwidth == k && b[k][0] in ms
    decreases |ms|
  {
    if ms == [] then map[]
    else
      var init := ms[..|ms| - 1];
      var last := ms[|ms| - 1];
      assert ms == init + [last];
      assert Bandwidths(ms) == Bandwidths(init) + {last.stream.bandwidth} by {
        forall k | k in Bandwidths(ms) ensures k in Bandwidths(init) + {last.stream.bandwidth} {
          var j :| 0 <= j < |ms| && ms[j].stream.bandwidth == k;
          if j < |init| { assert init[j] == ms[j]; }
        }
        forall k | k in Bandwidths(init) ensures k in Bandwidths(ms) {
          var j :| 0 <= j < |init| && init[j].stream.bandwidth == k;
          assert ms[j] == init[j];
        }
      }
      Seed(init)[last.stream.bandwidth := [last]]
  }

  /** No rendition after position `j` has the bandwidth of the one at `j`. */
  ghost predicate IsLastWithBandwidth(ms: seq<Member>, j: nat)
    requires j < |ms|
  {
    forall j' :: j < j' < |ms| ==> ms[j'].stream.bandwidth != ms[j].stream.bandwidth
  }

  /** A repeated bandwidth in the first source resets its bucket
      (`variants[bw] = []`), so the last rendition with that bandwidth wins. */
  lemma {:induction false} SeedKeepsLast(ms: seq<Member>, j: nat)
    requires j < |ms| && IsLastWithBandwidth(ms, j)
    ensures Seed(ms)[ms[j].stream.bandwidth] == [ms[j]]
    decreases |ms|
  {
    if j < |ms| - 1 {
      var init := ms[..|ms| - 1];
      assert init[j] == ms[j];
      assert IsLastWithBandwidth(init, j) by {
        forall j' | j < j' < |init| ensures init[j'].stream.bandwidth != init[j].stream.bandwidth {
          assert init[j'] == ms[j'];
        }
      }
      SeedKeepsLast(init, j);
    }
  }

  /** The bucket a later rendition joins (line 81): the nearest existing key. */
  function Target(b: Buckets, m: Member): (k: nat)
    requires b != map[]
    ensures k in b
    ensures Nearest.IsNearest(m.stream.bandwidth, SortedKeys(b.Keys), k)
  {
    var keys := SortedKeys(b.Keys);
    var k0 :| k0 in b;
    assert k0 in keys;
    var k := Nearest.FindNearest(m.stream.bandwidth, keys);
    assert k in keys;
    k
  }

  /** The renditions of `ms` whose nearest key is `k`, in their original order. */
  function Routed(b: Buckets, ms: seq<Member>, k: nat): (r: seq<Member>)
    requires b != map[]
    ensures |r| <= |ms|
    decreases |ms|
  {
    if ms == [] then []
    else Routed(b, ms[..|ms| - 1], k) + (if Target(b, ms[|ms| - 1]) == k then [ms[|ms| - 1]] else [])
  }

  /** A rendition is routed to `k` exactly when `k` is its nearest key. */
  lemma {:induction false} RoutedMembers(b: Buckets, ms: seq<Member>, k: nat)
    requires b != map[]
    ensures forall m :: m in Routed(b, ms, k) <==> m in ms && Target(b, m) == k
    decreases |ms|
  {
    if ms != [] {
      var init := ms[..|ms| - 1];
      RoutedMembers(b, init, k);
      assert ms == init + [ms[|ms| - 1]];
    }
  }

  /** Lines 80-82 for every rendition of the later sources, in order: each is
      appended to the bucket with the nearest key. The key set never changes; with
      no bucket at all, `findNearestBw` reduces an empty array and throws. */
  function AssignAll(b: Buckets, ms: seq<Member>): (r: Result<Buckets, Error>)
    ensures r.Ok? <==> b != map[] || ms == []
    ensures r.Err? ==> r.error == NoBucketToMatch(ms[0].stream.bandwidth)
    ensures r.Ok? ==> r.value.Keys == b.Keys
    decreases |ms|
  {
    if ms == [] then Ok(b)
    else
      var init := ms[..|ms| - 1];
      var last := ms[|ms| - 1];
      var prev := AssignAll(b, init);
      if prev.Err? then
        assert init[0] == ms[0];
        prev
      else if prev.value == map[] then
        assert init == [] && last == ms[0];
        Err(NoBucketToMatch(last.stream.bandwidth))
      else Ok(Place(prev.value, last))
  }

  /** Lines 80-82 for one rendition: appended to the bucket of its nearest key. */
  function Place(b: Buckets, m: Member): (r: Buckets)
    requires b != map[]
    ensures r.Keys == b.Keys
    ensures forall k :: k in b ==> r[k] == if k == Target(b, m) then b[k] + [m] else b[k]
  {
    var t := Target(b, m);
    b[t := b[t] + [m]]
  }

  /** Each bucket ends up holding its seed followed by exactly the later
      renditions nearest to its key, in the order they were processed. */
  lemma {:induction false} AssignAllRoutes(b: Buckets, ms: seq<Member>, k: nat)
    requires b != map[] && k in b
    ensures AssignAll(b, ms).Ok?
    ensures AssignAll(b, ms).value[k] == b[k] + Routed(b, ms, k)
    decreases |ms|
  {
    if ms == [] {
      assert b[k] + [] == b[k];
    } else {
      var init := ms[..|ms| - 1];
      var last := ms[|ms| - 1];
      AssignAllStep(b, ms);
      var r := AssignAll(b, init).value;
      var t := Target(b, last);
      assert AssignAll(b, ms).value[k] == if k == t then r[k] + [last] else r[k];
      assert r[k] == b[k] + Routed(b, init, k) by {
        AssignAllRoutes(b, init, k);
      }
      assert Routed(b, ms, k) == Routed(b, init, k) + (if t == k then [last] else []);
      AppendStep(b[k], Routed(b, init, k), last, t == k);
    }
  }

  /** Sequence identity kept apart from its caller: stated inline, beside the
      nearest-key terms in scope there, it costs the solver far more. */
  lemma AppendStep(seed: seq<Member>, before: seq<Member>, last: Member, hit: bool)
    ensures (if hit then (seed + before) + [last] else seed + before)
            == seed + (before + (if hit then [last] else []))
  {
  }

  lemma AssignAllStep(b: Buckets, ms: seq<Member>)
    requires b != map[] && ms != []
    ensures AssignAll(b, ms[..|ms| - 1]).Ok?
    ensures var r := AssignAll(b, ms[..|ms| - 1]).value;
            && r != map[]
            && AssignAll(b, ms) == Ok(Place(r, ms[|ms| - 1]))
            && Target(r, ms[|ms| - 1]) == Target(b, ms[|ms| - 1])
  {
    var r := AssignAll(b, ms[..|ms| - 1]).value;
    assert r.Keys == b.Keys;
    assert r != map[] by {
      var k :| k in b;
      assert k in r.Keys;
    }
  }

  /** Source order, then stream order. */
  function Flatten(ls: seq<seq<Member>>): seq<Member>
  {
    if ls == [] then [] else ls[0] + Flatten(ls[1..])
  }

  lemma {:induction false} FlattenMember(ls: seq<seq<Member>>, m: Member)
    requires m in Flatten(ls)
    ensures exists i :: 0 <= i < |ls| && m in ls[i]
  {
    if m !in ls[0] {
      FlattenMember(ls[1..], m);
      var i :| 0 <= i < |ls[1..]| && m in ls[1..][i];
      assert ls[i + 1] == ls[1..][i];
    }
  }

  /** Lines 67-89: the buckets after every source has been processed. */
  function Align(loaded: seq<seq<Member>>): (r: Result<Buckets, Error>)
    ensures r.Ok? <==> loaded == [] || Bandwidths(loaded[0]) != {} || Flatten(loaded[1..]) == []
    ensures r.Ok? ==> r.value.Keys == (if loaded == [] then {} else Bandwidths(loaded[0]))
  {
    if loaded == [] then Ok(map[]) else AssignAll(Seed(loaded[0]), Flatten(loaded[1..]))
  }

  /** Number of positions of `ks` holding `t`. */
  function Hits(ks: seq<nat>, t: nat): nat
  {
    if ks == [] then 0 else (if ks[0] == t then 1 else 0) + Hits(ks[1..], t)
  }

  lemma {:induction false} HitsOfDistinct(ks: seq<nat>, t: nat)
    requires StrictlyAscending(ks) && t in ks
    ensures Hits(ks, t) == 1
    decreases |ks|
  {
    if ks[0] == t {
      assert Hits(ks[1..], t) == 0 by { HitsAbsent(ks[1..], t); }
    } else {
      assert t in ks[1..];
      HitsOfDistinct(ks[1..], t);
    }
  }

  lemma {:induction false} HitsAbsent(ks: seq<nat>, t: nat)
    requires StrictlyAscending(ks) && forall i :: 0 <= i < |ks| ==> ks[i] > t || ks[i] < t
    ensures Hits(ks, t) == 0
    decreases |ks|
  {
    if ks != [] {
      HitsAbsent(ks[1..], t);
    }
  }

  /** Total number of renditions routed to the keys `ks`. */
  function RoutedCount(b: Buckets, ms: seq<Member>, ks: seq<nat>): nat
    requires b != map[]
  {
    if ks == [] then 0 else |Routed(b, ms, ks[0])| + RoutedCount(b, ms, ks[1..])
  }

  lemma {:induction false} RoutedCountStep(b: Buckets, ms: seq<Member>, ks: seq<nat>)
    requires b != map[] && ms != []
    ensures RoutedCount(b, ms, ks)
            == RoutedCount(b, ms[..|ms| - 1], ks) + Hits(ks, Target(b, ms[|ms| - 1]))
    decreases |ks|
  {
    if ks != [] {
      RoutedCountStep(b, ms, ks[1..]);
    }
  }

  /** Every later rendition lands in exactly one bucket: summed over all keys, the
      routed lists hold exactly the later renditions. */
  lemma {:induction false} RoutingPartitions(b: Buckets, ms: seq<Member>)
    requires b != map[]
    ensures RoutedCount(b, ms, SortedKeys(b.Keys)) == |ms|
    decreases |ms|
  {
    var ks := SortedKeys(b.Keys);
    if ms == [] {
      RoutedCountEmpty(b, ks);
    } else {
      RoutedCountStep(b, ms, ks);
      RoutingPartitions(b, ms[..|ms| - 1]);
      HitsOfDistinct(ks, Target(b, ms[|ms| - 1]));
    }
  }

  lemma {:induction false} RoutedCountEmpty(b: Buckets, ks: seq<nat>)
    requires b != map[]
    ensures RoutedCount(b, [], ks) == 0
    decreases |ks|
  {
    if ks != [] {
      RoutedCountEmpty(b, ks[1..]);
    }
  }

  /** After all sources, each bucket holds its seed followed by the later
      renditions routed to it; in particular it is never empty and its first
      member carries the bucket's own bandwidth. */
  lemma AlignShape(loaded: seq<seq<Member>>, k: nat)
    requires loaded != [] && Align(loaded).Ok? && k in Align(loaded).value
    ensures var seed := Seed(loaded[0]);
            && k in seed
            && Align(loaded).value[k] == seed[k] + Routed(seed, Flatten(loaded[1..]), k)
            && Align(loaded).value[k] != []
            && Align(loaded).value[k][0] == seed[k][0]
            && Align(loaded).value[k][0].stream.bandwidth == k
  {
    var seed: Buckets := Seed(loaded[0]);
    AlignBucket(loaded, k);
    assert |seed[k]| == 1 && seed[k][0].stream.bandwidth == k;
    SingletonHead(seed[k], Routed(seed, Flatten(loaded[1..]), k));
  }

  /** Sequence identity kept apart from its caller: stated inline, beside the
      nearest-key terms in scope there, it costs the solver far more. */
  lemma SingletonHead(a: seq<Member>, b: seq<Member>)
    requires |a| == 1
    ensures a + b != [] && (a + b)[0] == a[0]
  {
  }

  lemma AlignBucket(loaded: seq<seq<Member>>, k: nat)
    requires loaded != [] && Align(loaded).Ok? && k in Align(loaded).value
    ensures var seed := Seed(loaded[0]);
            && k in seed
            && Align(loaded).value[k] == seed[k] + Routed(seed, Flatten(loaded[1..]), k)
  {
    AssignAllRoutes(Seed(loaded[0]), Flatten(loaded[1..]), k);
  }

  /** Every rendition of source `i` carries `i` as its source index. */
  ghost predicate Tagged(loaded: seq<seq<Member>>)
  {
    forall i, j :: 0 <= i < |loaded| && 0 <= j < |loaded[i]| ==> loaded[i][j].source == i
  }

  /** Buckets hold only renditions of the sources, and a member's source index
      says which source it came from. */
  lemma AlignMembersFromSources(loaded: seq<seq<Member>>, k: nat, m: Member)
    requires Tagged(loaded) && loaded != [] && Align(loaded).Ok?
    requires k in Align(loaded).value && m in Align(loaded).value[k]
    ensures m.source < |loaded| && m in loaded[m.source]
  {
    var seed := Seed(loaded[0]);
    var later := Flatten(loaded[1..]);
    assert k in seed && Align(loaded).value[k] == seed[k] + Routed(seed, later, k) by {
      AlignShape(loaded, k);
    }
    if m in seed[k] {
      SeedMemberFromFirst(loaded, k, m);
    } else {
      assert m in later by {
        assert m in Routed(seed, later, k);
        RoutedMembers(seed, later, k);
      }
      LaterMemberFromSource(loaded, m);
    }
  }

  lemma SeedMemberFromFirst(loaded: seq<seq<Member>>, k: nat, m: Member)
    requires Tagged(loaded) && loaded != []
    requires k in Seed(loaded[0]) && m in Seed(loaded[0])[k]
    ensures m.source == 0 && m in loaded[0]
  {
    var seed := Seed(loaded[0]);
    assert seed[k] == [seed[k][0]];
    var j :| 0 <= j < |loaded[0]| && loaded[0][j] == m;
  }

  lemma LaterMemberFromSource(loaded: seq<seq<Member>>, m: Member)
    requires Tagged(loaded) && loaded != []
    requires m in Flatten(loaded[1..])
    ensures m.source < |loaded| && m in loaded[m.source]
  {
    FlattenMember(loaded[1..], m);
    var i :| 0 <= i < |loaded[1..]| && m in loaded[1..][i];
    assert loaded[1..][i] == loaded[i + 1];
    var j :| 0 <= j < |loaded[i + 1]| && loaded[i + 1][j] == m;
  }
}

=== FILE: findings.dfy ===
/** Two places where `concat` (src/index.ts:64-113) departs from what it evidently
    intends, each exhibited on a concrete input, together with the property the
    corrected pass (`Vod.Run(Intended, ...)`) has instead. */
module Findings {
  import opened Wrappers
  import opened Model
  import opened Resolve
  import opened Buckets
  import opened Timeline
  import opened Vod

  /** A ten-second segment. */
  const Ten: Segment := Segment("s.ts", 10.0, false, "", map[])

  /** A loader that answers every request with a one-segment playlist. */
  function Clip(uri: string): (m: Media)
    ensures |m.segments| == 1 && TotalDuration(m.segments) == 10.0
  {
    Media([Ten], 10, map[])
  }

  function Single(source: nat): Member
  {
    Member(source, StreamItem(100, "v.m3u8", map[]), Clip("v.m3u8"))
  }

  /** Line 104 (self-concatenation): two sources of one ten-second segment each
      merge into three segments and thirty seconds as written, where each source
      once gives two segments and twenty seconds. */
  lemma SelfConcatExample()
    ensures var ms := [Single(0), Single(1)];
            && Merge(100, ms).Ok?
            && |Merge(100, ms).value.segments| == 3
            && TotalDuration(Merge(100, ms).value.segments) == 30.0
            && MergeIntended(100, ms).Ok?
            && |MergeIntended(100, ms).value.segments| == 2
            && TotalDuration(MergeIntended(100, ms).value.segments) == 20.0
  {
    var ms := [Single(0), Single(1)];
    assert ms[1..] == [Single(1)];
    assert SegmentCount(ms[1..]) == 1 by {
      assert ms[1..][1..] == [];
    }
    assert SumOfTotals(ms) == 20.0 by {
      assert ms[1..][1..] == [];
    }
    assert SegmentCount(ms) == 2 by {
      assert ms[1..][1..] == [];
    }
  }

  /** The corrected fold plays every source once: the merged playlist is each
      bucket member's playlist in turn, with the sum of their durations. */
  lemma IntendedMergePlaysEachOnce(bw: nat, ms: seq<Member>)
    requires ms != [] && MergeIntended(bw, ms).Ok?
    ensures |MergeIntended(bw, ms).value.segments| == SegmentCount(ms)
    ensures TotalDuration(MergeIntended(bw, ms).value.segments) == SumOfTotals(ms)
    ensures forall p :: 0 <= p < |ms[0].media.segments| ==>
              MergeIntended(bw, ms).value.segments[p] == ms[0].media.segments[p]
  {
    MergeIntendedSegments(bw, ms);
  }

  /** The bandwidth ladders of the count-only example: the first source offers
      100 and 1000, the second 100 and 110 but not 1000, the third only 1000. */
  predicate Ladders(sources: seq<Source>)
  {
    && |sources| == 3
    && |sources[0].streams| == 2 && |sources[1].streams| == 2 && |sources[2].streams| == 1
    && sources[0].streams[0].bandwidth == 100 && sources[0].streams[1].bandwidth == 1000
    && sources[1].streams[0].bandwidth == 100 && sources[1].streams[1].bandwidth == 110
    && sources[2].streams[0].bandwidth == 1000
  }

  /** A loader that never answers with an empty playlist. */
  ghost predicate NeverEmpty(fetch: string -> Media)
  {
    forall u :: fetch(u).segments != []
  }

  /** The source index of each member of a bucket, in bucket order. */
  function Origins(ms: seq<Member>): (r: seq<nat>)
    ensures |r| == |ms| && forall i :: 0 <= i < |ms| ==> r[i] == ms[i].source
  {
    seq(|ms|, i requires 0 <= i < |ms| => ms[i].source)
  }

  /** Bucketing renditions with those ladders: 100 collects the first source's
      rendition and both of the second's (110 is nearer 100 than 1000), 1000
      collects the first source's and the third's. */
  lemma LadderBuckets(loaded: seq<seq<Member>>)
    requires |loaded| == 3 && |loaded[0]| == 2 && |loaded[1]| == 2 && |loaded[2]| == 1
    requires loaded[0][0].stream.bandwidth == 100 && loaded[0][1].stream.bandwidth == 1000
    requires loaded[1][0].stream.bandwidth == 100 && loaded[1][1].stream.bandwidth == 110
    requires loaded[2][0].stream.bandwidth == 1000
    ensures Align(loaded).Ok?
    ensures Align(loaded).value.Keys == {100, 1000}
    ensures Align(loaded).value[100] == [loaded[0][0], loaded[1][0], loaded[1][1]]
    ensures Align(loaded).value[1000] == [loaded[0][1], loaded[2][0]]
  {
    var m00, m01, m10, m11, m20 := loaded[0][0], loaded[0][1], loaded[1][0], loaded[1][1], loaded[2][0];
    var seed := Seed(loaded[0]);
    var later := Flatten(loaded[1..]);
    assert seed.Keys == {100, 1000} && seed[100] == [m00] && seed[1000] == [m01] by {
      LadderSeed(loaded[0]);
    }
    assert later == [m10, m11, m20] by {
      LaterThree(loaded);
    }
    LadderJoins(m00, m01, m10, m11, m20);
    assert Routed(seed, later, 100) == [m10, m11] && Routed(seed, later, 1000) == [m20] by {
      LadderTargets(seed, m10, m11, m20);
      RoutedThree(seed, m10, m11, m20, 100);
      RoutedThree(seed, m10, m11, m20, 1000);
    }
    assert Align(loaded).value[100] == seed[100] + Routed(seed, later, 100) by {
      AlignShape(loaded, 100);
    }
    assert Align(loaded).value[1000] == seed[1000] + Routed(seed, later, 1000) by {
      AlignShape(loaded, 1000);
    }
  }

  /** Sequence identity kept apart from its caller: stated inline, beside the
      nearest-key terms in scope there, it costs the solver far more. */
  lemma LadderJoins(a: Member, b: Member, c: Member, d: Member, e: Member)
    ensures [c] + [d] + [] == [c, d] && [] + [] + [e] == [e]
    ensures [a] + [c, d] == [a, c, d] && [b] + [e] == [b, e]
  {
  }

  lemma LadderSeed(first: seq<Member>)
    requires |first| == 2 && first[0].stream.bandwidth == 100 && first[1].stream.bandwidth == 1000
    ensures Seed(first).Keys == {100, 1000} && Seed(first)[100] == [first[0]] && Seed(first)[1000] == [first[1]]
  {
    var seed := Seed(first);
    assert first == [first[0], first[1]];
    assert Bandwidths(first) == {100, 1000};
    assert seed[100][0] in first && seed[1000][0] in first;
  }

  lemma LaterThree(loaded: seq<seq<Member>>)
    requires |loaded| == 3
    ensures Flatten(loaded[1..]) == loaded[1] + loaded[2]
  {
    var tail := loaded[1..];
    assert tail[0] == loaded[1] && tail[1..][0] == loaded[2] && tail[1..][1..] == [];
    assert Flatten(tail[1..]) == loaded[2] + Flatten([]);
  }

  /** 100 and 110 are nearest 100, and 1000 is nearest 1000, among the keys 100 and 1000. */
  lemma LadderTargets(seed: Buckets, x: Member, y: Member, z: Member)
    requires seed.Keys == {100, 1000}
    requires x.stream.bandwidth == 100 && y.stream.bandwidth == 110 && z.stream.bandwidth == 1000
    ensures Target(seed, x) == 100 && Target(seed, y) == 100 && Target(seed, z) == 1000
  {
    var keys := SortedKeys(seed.Keys);
    assert 100 in keys && 1000 in keys;
  }

  lemma RoutedSnoc(b: Buckets, ms: seq<Member>, m: Member, k: nat)
    requires b != map[]
    ensures Routed(b, ms + [m], k) == Routed(b, ms, k) + (if Target(b, m) == k then [m] else [])
  {
    assert (ms + [m])[..|ms|] == ms;
  }

  /** Rendition `j` of source `i`, loaded: its source index, bandwidth and a
      non-empty playlist. */
  lemma LoadedRendition(sources: seq<Source>, fetch: string -> Media, i: nat, j: nat)
    requires NeverEmpty(fetch) && i < |sources| && j < |sources[i].streams|
    ensures var m := LoadAll(sources, fetch)[i][j];
            m.source == i && m.stream.bandwidth == sources[i].streams[j].bandwidth && m.media.segments != []
  {
    LoadSourceResolves(i, sources[i], fetch, j);
  }

  lemma ThreeMembers(x: Member, y: Member, z: Member)
    ensures Origins([x, y, z]) == [x.source, y.source, z.source]
    ensures AllNonEmpty([x, y, z]) <==> x.media.segments != [] && y.media.segments != [] && z.media.segments != []
  {
    var o := Origins([x, y, z]);
    assert o[0] == x.source && o[1] == y.source && o[2] == z.source;
  }

  /** Loaded with a loader that never answers empty, the ladders bucket into
      100, holding renditions of sources 0, 1 and 1, and 1000, holding two. */
  lemma LadderBucketsOf(sources: seq<Source>, fetch: string -> Media)
    requires Ladders(sources) && NeverEmpty(fetch)
    ensures Align(LoadAll(sources, fetch)).Ok?
    ensures var b := BucketsOf(sources, fetch);
            && b.Keys == {100, 1000}
            && Origins(b[100]) == [0, 1, 1]
            && AllNonEmpty(b[100])
            && |b[1000]| == 2
  {
    var loaded: seq<seq<Member>> := LoadAll(sources, fetch);
    LoadedRendition(sources, fetch, 0, 0);
    LoadedRendition(sources, fetch, 0, 1);
    LoadedRendition(sources, fetch, 1, 0);
    LoadedRendition(sources, fetch, 1, 1);
    LoadedRendition(sources, fetch, 2, 0);
    assert |loaded[0]| == 2 && |loaded[1]| == 2 && |loaded[2]| == 1;
    LadderBuckets(loaded);
    var b := BucketsOf(sources, fetch);
    assert b == Align(loaded).value;
    var ms := b[100];
    assert ms == [loaded[0][0], loaded[1][0], loaded[1][1]];
    ThreeMembers(loaded[0][0], loaded[1][0], loaded[1][1]);
  }

  /** Sequence identity kept apart from its caller: stated inline, beside the
      nearest-key terms in scope there, it costs the solver far more. */
  lemma Snoc3(x: Member, y: Member, z: Member)
    ensures [] + [x] == [x] && [x] + [y] == [x, y] && [x, y] + [z] == [x, y, z]
  {
  }

  /** Routing three renditions keeps, in order, those whose nearest key is `k`. */
  lemma RoutedThree(b: Buckets, x: Member, y: Member, z: Member, k: nat)
    requires b != map[]
    ensures Routed(b, [x, y, z], k)
            == (if Target(b, x) == k then [x] else [])
               + (if Target(b, y) == k then [y] else [])
               + (if Target(b, z) == k then [z] else [])
  {
    Snoc3(x, y, z);
    var a := if Target(b, x) == k then [x] else [];
    var c := if Target(b, y) == k then [y] else [];
    var d := if Target(b, z) == k then [z] else [];
    assert Routed(b, [x], k) == a by {
      RoutedSnoc(b, [], x, k);
    }
    assert Routed(b, [x, y], k) == a + c by {
      RoutedSnoc(b, [x], y, k);
    }
    assert Routed(b, [x, y, z], k) == a + c + d by {
      RoutedSnoc(b, [x, y], z, k);
    }
  }

  /** Line 91 (count-only validation): as written, bandwidth 100 survives for
      these ladders although its bucket holds two renditions of the second
      source and none of the third; the corrected check drops it and keeps
      no variant at all. */
  lemma CountOnlyExample(sources: seq<Source>, fetch: string -> Media)
    requires Ladders(sources) && NeverEmpty(fetch)
    ensures Concat(sources, fetch).Ok?
    ensures 100 in Concat(sources, fetch).value.variants
    ensures Align(LoadAll(sources, fetch)).Ok? && Origins(BucketsOf(sources, fetch)[100]) == [0, 1, 1]
    ensures Run(Intended, sources, fetch).Ok?
    ensures Run(Intended, sources, fetch).value.variants == map[]
  {
    LadderBucketsOf(sources, fetch);
    LaddersKeptAsWritten(sources, fetch);
    LaddersDroppedIntended(sources, fetch);
  }

  lemma LaddersKeptAsWritten(sources: seq<Source>, fetch: string -> Media)
    requires Ladders(sources) && NeverEmpty(fetch)
    ensures Concat(sources, fetch).Ok? && 100 in Concat(sources, fetch).value.variants
  {
    LadderFullBuckets(sources, fetch);
    assert Concat(sources, fetch).Ok? by {
      ConcatFails(sources, fetch);
    }
    ConcatSurvivors(sources, fetch, 100);
  }

  /** Only bucket 100 has as many members as there are sources, and it merges. */
  lemma LadderFullBuckets(sources: seq<Source>, fetch: string -> Media)
    requires Ladders(sources) && NeverEmpty(fetch)
    ensures Align(LoadAll(sources, fetch)).Ok?
    ensures var b := BucketsOf(sources, fetch);
            && 100 in b && |b[100]| == |sources|
            && (forall k :: k in b && |b[k]| == |sources| ==> k == 100)
            && Merge(100, b[100]).Ok?
  {
    LadderBucketsOf(sources, fetch);
    var b: Buckets := BucketsOf(sources, fetch);
    var ms := b[100];
    assert |ms| == 3 by {
      assert |Origins(ms)| == |ms|;
    }
    assert Merge(100, ms).Ok? by {
      TailNonEmpty(ms);
    }
  }

  lemma LaddersDroppedIntended(sources: seq<Source>, fetch: string -> Media)
    requires Ladders(sources) && NeverEmpty(fetch)
    ensures Run(Intended, sources, fetch).Ok? && Run(Intended, sources, fetch).value.variants == map[]
  {
    LadderNoneIntended(sources, fetch);
    assert Run(Intended, sources, fetch).Ok? by {
      RunFails(Intended, sources, fetch);
    }
    RunFacts(Intended, sources, fetch);
    var v := Run(Intended, sources, fetch).value;
    assert v.variants.Keys == {};
  }

  /** No bucket of the ladders has one rendition per source in source order. */
  lemma LadderNoneIntended(sources: seq<Source>, fetch: string -> Media)
    requires Ladders(sources) && NeverEmpty(fetch)
    ensures Align(LoadAll(sources, fetch)).Ok?
    ensures var b := BucketsOf(sources, fetch);
            forall k :: k in b ==> !Survives(Intended, b[k], |sources|)
  {
    LadderBucketsOf(sources, fetch);
    var b: Buckets := BucketsOf(sources, fetch);
    assert b[100][2].source == Origins(b[100])[2] == 1;
  }

  /** The ladders are met, for instance, by three master playlists under
      different directories and the one-segment loader. */
  lemma LaddersInhabited()
    ensures NeverEmpty(Clip)
    ensures Ladders([
      Source("a/master.m3u8", [StreamItem(100, "lo.m3u8", map[]), StreamItem(1000, "hi.m3u8", map[])]),
      Source("b/master.m3u8", [StreamItem(100, "lo.m3u8", map[]), StreamItem(110, "mid.m3u8", map[])]),
      Source("c/master.m3u8", [StreamItem(1000, "hi.m3u8", map[])])])
  {
  }

  /** Two VODs under different directories, each offering one rendition of bandwidth 100. */
  function TwoSingles(): (sources: seq<Source>)
    ensures |sources| == 2
  {
    [Source("a/master.m3u8", [StreamItem(100, "v.m3u8", map[])]),
     Source("b/master.m3u8", [StreamItem(100, "v.m3u8", map[])])]
  }

  /** Line 91, corrected: a bandwidth that every source offers once survives the
      corrected check, and its variant plays each VOD once (two ten-second
      segments, twenty seconds). */
  lemma IntendedKeepsExample()
    ensures Run(Intended, TwoSingles(), Clip).Ok?
    ensures Run(Intended, TwoSingles(), Clip).value.variants.Keys == {100}
    ensures |Run(Intended, TwoSingles(), Clip).value.variants[100].segments| == 2
    ensures TotalDuration(Run(Intended, TwoSingles(), Clip).value.variants[100].segments) == 20.0
  {
    TwoSinglesBucket();
    PairKept(TwoSingles(), Clip);
  }

  /** When the only bucket pairs a ten-second rendition of each of two sources,
      in source order, the corrected pass keeps it and plays each once. */
  lemma PairKept(sources: seq<Source>, fetch: string -> Media)
    requires |sources| == 2 && Align(LoadAll(sources, fetch)).Ok?
    requires var b := BucketsOf(sources, fetch);
             && b.Keys == {100}
             && |b[100]| == 2 && b[100][0].source == 0 && b[100][1].source == 1
             && AllNonEmpty(b[100])
             && |b[100][0].media.segments| == 1 && |b[100][1].media.segments| == 1
             && TotalDuration(b[100][0].media.segments) == 10.0
             && TotalDuration(b[100][1].media.segments) == 10.0
    ensures Run(Intended, sources, fetch).Ok?
    ensures Run(Intended, sources, fetch).value.variants.Keys == {100}
    ensures |Run(Intended, sources, fetch).value.variants[100].segments| == 2
    ensures TotalDuration(Run(Intended, sources, fetch).value.variants[100].segments) == 20.0
  {
    var b := BucketsOf(sources, fetch);
    var ms := b[100];
    PairSurvives(ms);
    OnlyBucketKept(sources, fetch);
    IntendedBucket(sources, fetch, 100);
    IntendedMergePlaysEachOnce(100, ms);
    TwoClipTotals(ms);
  }

  /** When the only bucket, 100, passes the corrected check and merges, the
      corrected pass succeeds and keeps exactly 100. */
  lemma OnlyBucketKept(sources: seq<Source>, fetch: string -> Media)
    requires Align(LoadAll(sources, fetch)).Ok?
    requires var b := BucketsOf(sources, fetch);
             && b.Keys == {100} && Survives(Intended, b[100], |sources|) && MergeIntended(100, b[100]).Ok?
    ensures Run(Intended, sources, fetch).Ok?
    ensures Run(Intended, sources, fetch).value.variants.Keys == {100}
  {
    assert Run(Intended, sources, fetch).Ok? by {
      RunFails(Intended, sources, fetch);
    }
  }

  /** A pair of non-empty renditions of sources 0 and 1, in that order, passes the
      corrected check and merges. */
  lemma PairSurvives(ms: seq<Member>)
    requires |ms| == 2 && ms[0].source == 0 && ms[1].source == 1 && AllNonEmpty(ms)
    ensures Survives(Intended, ms, 2)
    ensures MergeIntended(100, ms).Ok?
  {
    TailNonEmpty(ms);
  }

  /** The two loaded renditions bucket together under 100, first source first. */
  lemma TwoSinglesBucket()
    ensures Align(LoadAll(TwoSingles(), Clip)).Ok?
    ensures var b := BucketsOf(TwoSingles(), Clip);
            && b.Keys == {100}
            && |b[100]| == 2 && b[100][0].source == 0 && b[100][1].source == 1
            && AllNonEmpty(b[100])
            && |b[100][0].media.segments| == 1 && |b[100][1].media.segments| == 1
            && TotalDuration(b[100][0].media.segments) == 10.0
            && TotalDuration(b[100][1].media.segments) == 10.0
  {
    TwoSinglesLoaded();
    var loaded: seq<seq<Member>> := LoadAll(TwoSingles(), Clip);
    PairBucket(loaded);
    PairNonEmpty(loaded[0][0], loaded[1][0]);
  }

  lemma PairNonEmpty(x: Member, y: Member)
    requires x.media.segments != [] && y.media.segments != []
    ensures AllNonEmpty([x, y])
  {
    var ms := [x, y];
    assert ms[0] == x && ms[1] == y;
  }

  /** Loading the two VODs gives one rendition each, of bandwidth 100, tagged
      with its source and holding one ten-second segment. */
  lemma TwoSinglesLoaded()
    ensures var loaded := LoadAll(TwoSingles(), Clip);
            && |loaded| == 2 && |loaded[0]| == 1 && |loaded[1]| == 1
            && loaded[0][0].stream.bandwidth == 100 && loaded[1][0].stream.bandwidth == 100
            && loaded[0][0].source == 0 && loaded[1][0].source == 1
            && |loaded[0][0].media.segments| == 1 && |loaded[1][0].media.segments| == 1
            && TotalDuration(loaded[0][0].media.segments) == 10.0
            && TotalDuration(loaded[1][0].media.segments) == 10.0
  {
    var sources := TwoSingles();
    var loaded: seq<seq<Member>> := LoadAll(sources, Clip);
    LoadSourceResolves(0, sources[0], Clip, 0);
    LoadSourceResolves(1, sources[1], Clip, 0);
    OneSegmentTotal(loaded[0][0].media.segments);
    OneSegmentTotal(loaded[1][0].media.segments);
  }

  /** Two sources of one rendition each, of the same bandwidth, make one bucket
      holding both, first source first. */
  lemma PairBucket(loaded: seq<seq<Member>>)
    requires |loaded| == 2 && |loaded[0]| == 1 && |loaded[1]| == 1
    requires loaded[0][0].stream.bandwidth == 100 && loaded[1][0].stream.bandwidth == 100
    ensures Align(loaded).Ok?
    ensures Align(loaded).value.Keys == {100}
    ensures Align(loaded).value[100] == [loaded[0][0], loaded[1][0]]
  {
    var m0, m1 := loaded[0][0], loaded[1][0];
    assert loaded[0] == [m0];
    assert Flatten(loaded[1..]) == [m1] by {
      assert loaded[1..][0] == [m1] && loaded[1..][1..] == [];
    }
    var seed := Seed(loaded[0]);
    assert Bandwidths(loaded[0]) == {100};
    assert seed[100] == [m0] by {
      assert seed[100][0] in loaded[0];
    }
    assert Routed(seed, [m1], 100) == [m1] by {
      RoutedSnoc(seed, [], m1, 100);
      assert [] + [m1] == [m1];
    }
    AlignShape(loaded, 100);
  }

  /** A one-segment list lasts as long as its segment. */
  lemma OneSegmentTotal(segs: seq<Segment>)
    requires |segs| == 1
    ensures TotalDuration(segs) == segs[0].duration
  {
    assert segs[..0] == [];
  }

  /** Two members of one ten-second segment each add up to two segments and twenty seconds. */
  lemma TwoClipTotals(ms: seq<Member>)
    requires |ms| == 2
    requires |ms[0].media.segments| == 1 && |ms[1].media.segments| == 1
    requires TotalDuration(ms[0].media.segments) == 10.0 && TotalDuration(ms[1].media.segments) == 10.0
    ensures SegmentCount(ms) == 2 && SumOfTotals(ms) == 20.0
  {
    var tail := ms[1..];
    assert tail[0] == ms[1] && tail[1..] == [];
    assert SegmentCount(tail) == 1 && SumOfTotals(tail) == 10.0;
  }

  /** Under the corrected check a surviving bucket holds exactly one rendition of
      each source, in source order, and its variant plays each of them once. */
  lemma IntendedSurvivors(sources: seq<Source>, fetch: string -> Media, k: nat)
    requires Run(Intended, sources, fetch).Ok?
    requires k in Run(Intended, sources, fetch).value.variants
    ensures Align(LoadAll(sources, fetch)).Ok?
    ensures var b := BucketsOf(sources, fetch);
            var loaded := LoadAll(sources, fetch);
            && |b[k]| == |sources|
            && (forall i :: 0 <= i < |sources| ==> b[k][i] in loaded[i])
            && |Run(Intended, sources, fetch).value.variants[k].segments| == SegmentCount(b[k])
            && TotalDuration(Run(Intended, sources, fetch).value.variants[k].segments) == SumOfTotals(b[k])
  {
    IntendedBucket(sources, fetch, k);
    var b := BucketsOf(sources, fetch);
    var loaded := LoadAll(sources, fetch);
    forall i | 0 <= i < |sources| ensures b[k][i] in loaded[i] {
      IntendedMember(sources, fetch, k, i);
    }
  }

  lemma IntendedBucket(sources: seq<Source>, fetch: string -> Media, k: nat)
    requires Run(Intended, sources, fetch).Ok?
    requires k in Run(Intended, sources, fetch).value.variants
    ensures Align(LoadAll(sources, fetch)).Ok?
    ensures var b := BucketsOf(sources, fetch);
            && k in b && Survives(Intended, b[k], |sources|)
            && MergeIntended(k, b[k]) == Ok(Run(Intended, sources, fetch).value.variants[k])
  {
    RunFacts(Intended, sources, fetch);
  }

  lemma IntendedMember(sources: seq<Source>, fetch: string -> Media, k: nat, i: nat)
    requires Align(LoadAll(sources, fetch)).Ok?
    requires k in BucketsOf(sources, fetch) && Survives(Intended, BucketsOf(sources, fetch)[k], |sources|)
    requires i < |sources|
    ensures BucketsOf(sources, fetch)[k][i] in LoadAll(sources, fetch)[i]
  {
    var loaded := LoadAll(sources, fetch);
    var m := BucketsOf(sources, fetch)[k][i];
    LoadAllTagged(sources, fetch);
    AlignMembersFromSources(loaded, k, m);
  }
}

=== FILE: model.dfy ===
/** The entities the merge engine works on, and the small numeric and textual
    helpers (decimal rendering of a bandwidth, `Math.ceil`) the engine relies on. */
module Model {

  /** One media segment of a media playlist (an `#EXTINF` entry and its URI). Tags
      of the segment other than these (byte range, key, program date time and the
      like) are an opaque map the engine carries along untouched. */
  datatype Segment = Segment(uri: string, duration: real, discontinuity: bool, title: string,
                             attributes: map<string, string>)

  /** A loaded media playlist: its segments, its target duration and every other
      playlist-level attribute, which the engine carries along untouched. */
  datatype Media = Media(segments: seq<Segment>, targetDuration: int, attributes: map<string, string>)

  /** One `#EXT-X-STREAM-INF` entry of a master playlist. */
  datatype StreamItem = StreamItem(bandwidth: nat, uri: string, attributes: map<string, string>)

  /** A loaded master playlist together with the URI it was loaded from. */
  datatype Source = Source(uri: string, streams: seq<StreamItem>)

  /** A rendition after loading: the index of the source it came from, its stream
      entry and its media playlist (segment URIs already resolved). */
  datatype Member = Member(source: nat, stream: StreamItem, media: Media)

  /** The exceptions a merge run can raise. `NoBucketToMatch` is the `reduce` of an
      empty key list inside the nearest-bandwidth search; `NoFirstSegment` is the
      read of `PlaylistItem[0]` on an empty later playlist; `NoSegments` is the
      `reduce` of an empty merged segment list. The source raises a plain
      `TypeError` in each case, naming neither the bandwidth nor the position: those
      payloads are the model's own, added so that a proof can say where the run failed. */
  datatype Error =
    | NoBucketToMatch(bandwidth: nat)
    | NoFirstSegment(bandwidth: nat, position: nat)
    | NoSegments(bandwidth: nat)

  /** Sum of the segment durations of a list. */
  function TotalDuration(segs: seq<Segment>): real
  {
    if segs == [] then 0.0 else TotalDuration(segs[..|segs| - 1]) + segs[|segs| - 1].duration
  }

  lemma {:induction false} TotalDurationAppend(a: seq<Segment>, b: seq<Segment>)
    ensures TotalDuration(a + b) == TotalDuration(a) + TotalDuration(b)
    decreases |b|
  {
    if b == [] {
      assert a + b == a;
    } else {
      assert (a + b)[..|a + b| - 1] == a + b[..|b| - 1];
      TotalDurationAppend(a, b[..|b| - 1]);
    }
  }

  /** `Math.ceil`: the least integer not below `x`. */
  function Ceil(x: real): (r: int)
    ensures x <= r as real < x + 1.0
  {
    if x.Floor as real == x then x.Floor else x.Floor + 1
  }

  predicate IsDigit(c: char) {
    '0' <= c <= '9'
  }

  predicate AllDigits(s: string) {
    forall i :: 0 <= i < |s| ==> IsDigit(s[i])
  }

  /** JavaScript's `String(n)` for a non-negative integer: decimal digits, no leading zero. */
  function Decimal(n: nat): (s: string)
    ensures |s| > 0
    ensures AllDigits(s)
    ensures |s| > 1 ==> s[0] != '0'
  {
    if n < 10 then ["0123456789"[n]] else Decimal(n / 10) + ["0123456789"[n % 10]]
  }

  /** Reads back a string of decimal digits. */
  function ParseDecimal(s: string): nat
    requires AllDigits(s)
  {
    if s == [] then 0
    else
      assert IsDigit(s[|s| - 1]);
      ParseDecimal(s[..|s| - 1]) * 10 + ((s[|s| - 1] as int) - ('0' as int))
  }

  lemma {:induction false} ParseDecimalOfDecimal(n: nat)
    ensures ParseDecimal(Decimal(n)) == n
  {
    var s := Decimal(n);
    DigitValue(n % 10);
    if n >= 10 {
      assert s[..|s| - 1] == Decimal(n / 10);
      ParseDecimalOfDecimal(n / 10);
    } else {
      assert s[..0] == [];
    }
  }

  lemma DigitValue(d: nat)
    requires d < 10
    ensures ("0123456789"[d] as int) - ('0' as int) == d
  {
  }

  /** Different bandwidths render as different key strings. */
  lemma DecimalInjective(a: nat, b: nat)
    ensures Decimal(a) == Decimal(b) <==> a == b
  {
    if Decimal(a) == Decimal(b) {
      ParseDecimalOfDecimal(a);
      ParseDecimalOfDecimal(b);
    }
  }
}

=== FILE: nearest.dfy ===
/** The nearest-bandwidth search `findNearestBw` (src/index.ts:10-15): the key
    list is sorted in descending order and then reduced, keeping the current best
    unless a later key is strictly nearer. */
module Nearest {

  /** `Math.abs(a - b)`. */
  function Dist(a: int, b: int): nat
  {
    if a >= b then a - b else b - a
  }

  ghost predicate Descending(s: seq<int>)
  {
    forall i, j :: 0 <= i < j < |s| ==> s[i] >= s[j]
  }

  /** Every element of `s` is at most `v`. */
  ghost predicate AtMost(s: seq<int>, v: int)
  {
    forall i :: 0 <= i < |s| ==> s[i] <= v
  }

  lemma DescendingTail(s: seq<int>)
    requires Descending(s) && |s| > 0
    ensures Descending(s[1..]) && AtMost(s[1..], s[0])
  {
    forall i | 0 <= i < |s[1..]| ensures s[1..][i] <= s[0] {
      assert s[1..][i] == s[i + 1];
    }
  }

  lemma DescendingCons(x: int, s: seq<int>)
    requires Descending(s) && AtMost(s, x)
    ensures Descending([x] + s)
  {
    forall i, j | 0 <= i < j < |[x] + s| ensures ([x] + s)[i] >= ([x] + s)[j] {
      assert ([x] + s)[j] == s[j - 1];
      if i > 0 { assert ([x] + s)[i] == s[i - 1]; }
    }
  }

  /** Insertion into a descending list. */
  function Insert(x: int, s: seq<int>): (r: seq<int>)
    ensures multiset(r) == multiset(s) + multiset{x}
    ensures |r| == |s| + 1
  {
    if s == [] then [x]
    else if x >= s[0] then [x] + s
    else
      assert s == [s[0]] + s[1..];
      [s[0]] + Insert(x, s[1..])
  }

  lemma {:induction false} InsertDescending(x: int, s: seq<int>, v: int)
    requires Descending(s) && AtMost(s, v) && x <= v
    ensures Descending(Insert(x, s)) && AtMost(Insert(x, s), v)
    decreases |s|
  {
    if s == [] {
    } else if x >= s[0] {
      DescendingTail(s);
      assert AtMost(s, x) by {
        forall i | 0 <= i < |s| ensures s[i] <= x {
          if i > 0 { assert s[i] == s[1..][i - 1]; }
        }
      }
      DescendingCons(x, s);
    } else {
      DescendingTail(s);
      InsertDescending(x, s[1..], s[0]);
      DescendingCons(s[0], Insert(x, s[1..]));
      assert AtMost(s[1..], v) by {
        forall i | 0 <= i < |s[1..]| ensures s[1..][i] <= v {
          assert s[1..][i] == s[i + 1];
        }
      }
      InsertDescending(x, s[1..], v);
    }
  }

  /** The in-place `sort((a, b) => b - a)` on a copy of the key list. */
  function SortDescending(s: seq<int>): (r: seq<int>)
    ensures Descending(r)
    ensures multiset(r) == multiset(s)
    ensures |r| == |s|
  {
    if s == [] then []
    else
      assert multiset(s) == multiset(s[1..]) + multiset{s[0]} by {
        assert s == [s[0]] + s[1..];
      }
      var sorted := SortDescending(s[1..]);
      InsertKeepsDescending(s[0], sorted);
      Insert(s[0], sorted)
  }

  lemma InsertKeepsDescending(x: int, sorted: seq<int>)
    requires Descending(sorted)
    ensures Descending(Insert(x, sorted))
  {
    var top := if sorted == [] || x >= sorted[0] then x else sorted[0];
    assert AtMost(sorted, top) by {
      if sorted != [] {
        DescendingTail(sorted);
        assert sorted == [sorted[0]] + sorted[1..];
      }
    }
    InsertDescending(x, sorted, top);
  }

  /** The reducer of line 13: the later candidate wins only when strictly nearer. */
  function Pick(bw: int, a: int, b: int): (r: int)
    ensures r == a || r == b
    ensures Dist(r, bw) <= Dist(a, bw) && Dist(r, bw) <= Dist(b, bw)
    ensures Dist(b, bw) == Dist(a, bw) ==> r == a
  {
    if Dist(b, bw) < Dist(a, bw) then b else a
  }

  /** `rest.reduce(Pick, acc)`: a left fold. */
  function Reduce(bw: int, acc: int, rest: seq<int>): (r: int)
    ensures r == acc || r in rest
    ensures Dist(r, bw) <= Dist(acc, bw)
    ensures forall k :: k in rest ==> Dist(r, bw) <= Dist(k, bw)
    decreases |rest|
  {
    if rest == [] then acc else Reduce(bw, Pick(bw, acc, rest[0]), rest[1..])
  }

  /** On a descending list, the fold keeps the largest of the nearest keys. */
  lemma {:induction false} ReduceKeepsLargestTie(bw: int, acc: int, rest: seq<int>)
    requires Descending(rest)
    requires AtMost(rest, acc)
    ensures forall k :: (k == acc || k in rest) && Dist(k, bw) == Dist(Reduce(bw, acc, rest), bw)
              ==> k <= Reduce(bw, acc, rest)
    decreases |rest|
  {
    if rest != [] {
      var next := Pick(bw, acc, rest[0]);
      var tail := rest[1..];
      DescendingTail(rest);
      assert AtMost(tail, next) by {
        forall i | 0 <= i < |tail| ensures tail[i] <= next {
          assert tail[i] <= rest[0];
        }
      }
      ReduceKeepsLargestTie(bw, next, tail);
      assert rest == [rest[0]] + tail;
    }
  }

  /** `r` is among the keys nearest to `bw`, and no equally near key is larger. */
  ghost predicate IsNearest(bw: int, keys: seq<int>, r: int)
  {
    && r in keys
    && (forall k :: k in keys ==> Dist(r, bw) <= Dist(k, bw))
    && (forall k :: k in keys && Dist(k, bw) == Dist(r, bw) ==> k <= r)
  }

  /** `findNearestBw(bw, keys)`. The source throws on an empty list (a `reduce`
      without a seed); callers guard against it. */
  function FindNearest(bw: int, keys: seq<int>): (r: int)
    requires |keys| > 0
    ensures IsNearest(bw, keys, r)
    ensures bw in keys ==> r == bw
  {
    var sorted := SortDescending(keys);
    assert sorted[0] in multiset(keys);
    assert sorted == [sorted[0]] + sorted[1..];
    DescendingTail(sorted);
    var r := Reduce(bw, sorted[0], sorted[1..]);
    ReduceKeepsLargestTie(bw, sorted[0], sorted[1..]);
    assert forall k :: k in keys <==> k in sorted by {
      forall k ensures k in keys <==> k in sorted {
        assert k in keys <==> k in multiset(keys);
        assert k in sorted <==> k in multiset(sorted);
      }
    }
    r
  }

  /** At most one key satisfies `IsNearest`: the search result is determined by the
      key set alone, so the order `Object.keys` happens to list keys in is irrelevant. */
  lemma NearestUnique(bw: int, keys: seq<int>, r1: int, r2: int)
    requires IsNearest(bw, keys, r1) && IsNearest(bw, keys, r2)
    ensures r1 == r2
  {
    assert Dist(r1, bw) == Dist(r2, bw);
  }

  lemma FindNearestOrderFree(bw: int, keys1: seq<int>, keys2: seq<int>)
    requires |keys1| > 0
    requires forall k :: k in keys1 <==> k in keys2
    ensures |keys2| > 0
    ensures FindNearest(bw, keys1) == FindNearest(bw, keys2)
  {
    assert keys1[0] in keys1;
    var r1 := FindNearest(bw, keys1);
    var r2 := FindNearest(bw, keys2);
    assert IsNearest(bw, keys2, r1);
    NearestUnique(bw, keys2, r1, r2);
  }
}

=== FILE: resolve.dfy ===
/** Base-URL derivation and URI prefixing in `concat` (src/index.ts:67-78). */
module Resolve {
  import opened Model

  /** The characters JavaScript's `.` does not match. */
  predicate IsLineTerminator(c: char)
  {
    c == '\n' || c == '\r' || c == '\U{2028}' || c == '\U{2029}'
  }

  /** Whether `/^(.*)\/.*?$/` matches: every character is matched by `.` or the
      slash, and a slash is present. */
  predicate BaseUrlMatches(uri: string)
  {
    (forall i :: 0 <= i < |uri| ==> !IsLineTerminator(uri[i])) && '/' in uri
  }

  /** Length of the longest prefix of `s` that ends in `/`, or 0 when there is none. */
  function ThroughLastSlash(s: string): (n: nat)
    ensures n <= |s|
    ensures n > 0 ==> s[n - 1] == '/'
    ensures forall i :: n <= i < |s| ==> s[i] != '/'
    ensures n > 0 <==> '/' in s
  {
    if s == [] then 0
    else if s[|s| - 1] == '/' then |s|
    else
      var n := ThroughLastSlash(s[..|s| - 1]);
      assert s == s[..|s| - 1] + [s[|s| - 1]];
      n
  }

  /** `baseUrl`: the master URI up to and including its last `/`. When the
      expression does not match, `baseUrl` stays `undefined`, and JavaScript's
      `undefined + uri` yields the text "undefined" followed by `uri`. */
  function BaseUrl(uri: string): (b: string)
    ensures BaseUrlMatches(uri) ==>
              && |b| > 0 && b <= uri && b[|b| - 1] == '/'
              && (forall i :: |b| <= i < |uri| ==> uri[i] != '/')
    ensures !BaseUrlMatches(uri) ==> b == "undefined"
  {
    if BaseUrlMatches(uri) then uri[..ThroughLastSlash(uri)] else "undefined"
  }

  /** Deriving the base URL again from a URI resolved against it, with a name that
      holds no `/`, gives the same base URL back. */
  lemma {:induction false} BaseUrlOfResolved(uri: string, name: string)
    requires BaseUrlMatches(uri)
    requires forall i :: 0 <= i < |name| ==> name[i] != '/' && !IsLineTerminator(name[i])
    ensures BaseUrl(BaseUrl(uri) + name) == BaseUrl(uri)
  {
    var b := BaseUrl(uri);
    var s := b + name;
    assert BaseUrlMatches(s) by {
      forall i | 0 <= i < |s| ensures !IsLineTerminator(s[i]) {
        if i < |b| { assert s[i] == uri[i]; } else { assert s[i] == name[i - |b|]; }
      }
      assert s[|b| - 1] == '/';
    }
    var n := ThroughLastSlash(s);
    assert n >= |b| by {
      assert s[|b| - 1] == '/';
    }
    assert s[..n] == b;
  }

  /** Lines 75-78: every segment URI of a loaded variant is prefixed with the base URL. */
  function PrefixMedia(base: string, media: Media): (r: Media)
    ensures |r.segments| == |media.segments|
    ensures r.targetDuration == media.targetDuration && r.attributes == media.attributes
    ensures forall k :: 0 <= k < |r.segments| ==>
              r.segments[k] == media.segments[k].(uri := base + media.segments[k].uri)
  {
    media.(segments := seq(|media.segments|, k requires 0 <= k < |media.segments| =>
                             media.segments[k].(uri := base + media.segments[k].uri)))
  }

  /** Lines 73-78 for one source: each stream's variant is fetched from the base
      URL followed by the stream URI, and its segment URIs are then prefixed. */
  function LoadSource(index: nat, src: Source, fetch: string -> Media): (ms: seq<Member>)
    ensures |ms| == |src.streams|
    ensures forall j :: 0 <= j < |ms| ==> ms[j].source == index && ms[j].stream == src.streams[j]
    ensures forall j :: 0 <= j < |ms| ==> |ms[j].media.segments| == |fetch(BaseUrl(src.uri) + src.streams[j].uri).segments|
  {
    var base := BaseUrl(src.uri);
    seq(|src.streams|, j requires 0 <= j < |src.streams| =>
      Member(index, src.streams[j], PrefixMedia(base, fetch(base + src.streams[j].uri))))
  }

  /** Rendition `j` of a loaded source keeps its stream entry and source index;
      its playlist is the one fetched from the base URL followed by the stream
      URI, with every segment URI prefixed by the base URL and nothing else changed. */
  lemma LoadSourceResolves(index: nat, src: Source, fetch: string -> Media, j: nat)
    requires j < |src.streams|
    ensures var m := LoadSource(index, src, fetch)[j];
            var base := BaseUrl(src.uri);
            var fetched := fetch(base + src.streams[j].uri);
            && m.source == index
            && m.stream == src.streams[j]
            && |m.media.segments| == |fetched.segments|
            && m.media.attributes == fetched.attributes
            && m.media.targetDuration == fetched.targetDuration
            && forall k :: 0 <= k < |fetched.segments| ==>
                 && m.media.segments[k].uri == base + fetched.segments[k].uri
                 && m.media.segments[k].duration == fetched.segments[k].duration
                 && m.media.segments[k].discontinuity == fetched.segments[k].discontinuity
                 && m.media.segments[k].title == fetched.segments[k].title
                 && m.media.segments[k].attributes == fetched.segments[k].attributes
  {
  }

  /** The whole `m3ulist`, loaded in source order. */
  function LoadAll(sources: seq<Source>, fetch: string -> Media): (loaded: seq<seq<Member>>)
    ensures |loaded| == |sources|
  {
    seq(|sources|, i requires 0 <= i < |sources| => LoadSource(i, sources[i], fetch))
  }
}

=== FILE: text.dfy ===
/** Newline-terminated blocks of text, the shape of the stream part of the master
    playlist `toString` produces (src/index.ts:58-60). */
module Text {

  /** Each item followed by a newline, one after another. */
  function Blocks(items: seq<string>): string
  {
    if items == [] then "" else items[0] + "\n" + Blocks(items[1..])
  }

  /** Where block `j` starts in `Blocks(items)`: the lengths of the items before
      it, each counted with its newline. */
  function Offset(items: seq<string>, j: nat): nat
    requires j <= |items|
  {
    if j == 0 then 0 else |items[0]| + 1 + Offset(items[1..], j - 1)
  }

  /** `item` sits in `t` at `start` and is followed by a newline. */
  ghost predicate BlockIn(t: string, start: nat, item: string)
  {
    && start + |item| < |t|
    && t[start..start + |item|] == item
    && t[start + |item|] == '\n'
  }

  /** The text is exactly as long as all items with their newlines. */
  lemma {:induction false} BlocksLength(items: seq<string>)
    ensures |Blocks(items)| == Offset(items, |items|)
  {
    if items != [] {
      BlocksLength(items[1..]);
    }
  }

  /** Block `j` holds item `j` followed by a newline. */
  lemma {:induction false} BlockAt(items: seq<string>, j: nat)
    requires j < |items|
    ensures BlockIn(Blocks(items), Offset(items, j), items[j])
  {
    var head := items[0] + "\n";
    var tail := Blocks(items[1..]);
    assert Blocks(items) == head + tail;
    if j == 0 {
      assert (head + tail)[..|items[0]|] == items[0];
    } else {
      assert items[1..][j - 1] == items[j];
      BlockAt(items[1..], j - 1);
      BlockInShift(head, tail, Offset(items[1..], j - 1), items[j]);
    }
  }

  /** A block keeps its content when text is put in front of it. */
  lemma BlockInShift(pre: string, t: string, start: nat, item: string)
    requires BlockIn(t, start, item)
    ensures BlockIn(pre + t, |pre| + start, item)
  {
  }

  /** Text made of at least one block ends with a newline. */
  lemma {:induction false} BlocksEndWithNewline(items: seq<string>)
    requires items != []
    ensures |Blocks(items)| > 0 && Blocks(items)[|Blocks(items)| - 1] == '\n'
  {
    var head := items[0] + "\n";
    var tail := Blocks(items[1..]);
    assert Blocks(items) == head + tail;
    if items[1..] != [] {
      BlocksEndWithNewline(items[1..]);
    } else {
      assert tail == "";
    }
  }
}

=== FILE: timeline.dfy ===
/** The merge fold of `concat` (src/index.ts:94-109): a surviving bucket's
    playlists are folded into one media playlist. */
module Timeline {
  import opened Wrappers
  import opened Model

  /** Line 102: the first segment of a later playlist is flagged as a discontinuity. */
  function MarkFirst(segs: seq<Segment>): (r: seq<Segment>)
    requires segs != []
    ensures |r| == |segs|
    ensures TotalDuration(r) == TotalDuration(segs)
  {
    var r := [segs[0].(discontinuity := true)] + segs[1..];
    assert TotalDuration(r) == TotalDuration(segs) by {
      TotalDurationAppend([segs[0]], segs[1..]);
      TotalDurationAppend([r[0]], segs[1..]);
      assert segs == [segs[0]] + segs[1..];
      assert [r[0]][..0] == [] && [segs[0]][..0] == [];
    }
    r
  }

  predicate AllNonEmpty(ms: seq<Member>)
  {
    forall i :: 0 <= i < |ms| ==> ms[i].media.segments != []
  }

  /** Number of segments over all members. */
  function SegmentCount(ms: seq<Member>): nat
  {
    if ms == [] then 0 else |ms[0].media.segments| + SegmentCount(ms[1..])
  }

  /** Sum of every member's own total duration. */
  function SumOfTotals(ms: seq<Member>): real
  {
    if ms == [] then 0.0 else TotalDuration(ms[0].media.segments) + SumOfTotals(ms[1..])
  }

  /** The playlists of `ms`, each with its first segment flagged, one after another
      (the `i > 0` rounds of the loop at lines 95-105). */
  function Joined(ms: seq<Member>): (r: seq<Segment>)
    requires AllNonEmpty(ms)
    ensures |r| == SegmentCount(ms)
    ensures TotalDuration(r) == SumOfTotals(ms)
  {
    if ms == [] then []
    else
      var head := MarkFirst(ms[0].media.segments);
      var tail := Joined(ms[1..]);
      TotalDurationAppend(head, tail);
      head + tail
  }

  /** Index of the first member with an empty playlist, if any. */
  function FirstEmpty(ms: seq<Member>): (r: Option<nat>)
    ensures r.None? <==> AllNonEmpty(ms)
    ensures r.Some? ==> r.value < |ms| && ms[r.value].media.segments == [] && AllNonEmpty(ms[..r.value])
  {
    if ms == [] then None
    else if ms[0].media.segments == [] then Some(0)
    else match FirstEmpty(ms[1..])
      case None => None
      case Some(j) =>
        assert forall i :: 0 <= i < j + 1 ==> ms[..j + 1][i] == ms[i];
        assert forall i :: 1 <= i < j + 1 ==> ms[i] == ms[1..][..j][i - 1];
        Some(j + 1)
  }

  /** Lines 106-108: the largest segment duration, as the `reduce` keeps it. */
  function MaxDuration(segs: seq<Segment>): (r: real)
    requires segs != []
    ensures forall p :: 0 <= p < |segs| ==> segs[p].duration <= r
    ensures exists p :: 0 <= p < |segs| && segs[p].duration == r
  {
    if |segs| == 1 then segs[0].duration
    else
      var prev := MaxDuration(segs[..|segs| - 1]);
      var current := segs[|segs| - 1].duration;
      assert forall p :: 0 <= p < |segs| - 1 ==> segs[..|segs| - 1][p] == segs[p];
      if prev > current then prev else current
  }

  /** The target duration is the least integer not below any segment duration. */
  ghost predicate TargetCovers(media: Media)
  {
    && (forall p :: 0 <= p < |media.segments| ==> media.segments[p].duration <= media.targetDuration as real)
    && (exists p :: 0 <= p < |media.segments| && (media.targetDuration - 1) as real < media.segments[p].duration)
  }

  /** Lines 94-109 as written: the fold starts from the first member's playlist and,
      in its first round as in every later one, appends that member's segments
      to the accumulator, so the first playlist appears twice. Every later
      playlist has its first segment flagged before it is appended; an empty
      later playlist, or an empty merged list, makes the source throw. */
  function Merge(bw: nat, ms: seq<Member>): (r: Result<Media, Error>)
    requires ms != []
    ensures r.Ok? <==> AllNonEmpty(ms[1..]) && (ms[0].media.segments != [] || |ms| > 1)
    ensures !AllNonEmpty(ms[1..]) ==> r == Err(NoFirstSegment(bw, FirstEmpty(ms[1..]).value + 1))
    ensures r.Ok? ==> TargetCovers(r.value)
    ensures r.Ok? ==> r.value.attributes == ms[0].media.attributes
    ensures r.Ok? ==> |r.value.segments| == 2 * |ms[0].media.segments| + SegmentCount(ms[1..])
    ensures r.Ok? ==> TotalDuration(r.value.segments)
                      == TotalDuration(ms[0].media.segments) + SumOfTotals(ms)
  {
    var later := ms[1..];
    match FirstEmpty(later)
    case Some(j) => Err(NoFirstSegment(bw, j + 1))
    case None =>
      var s0 := ms[0].media.segments;
      var segs := s0 + s0 + Joined(later);
      TotalDurationAppend(s0, s0);
      TotalDurationAppend(s0 + s0, Joined(later));
      if segs == [] then Err(NoSegments(bw))
      else
        assert later != [] ==> Joined(later) != [] by {
          if later != [] { assert |Joined(later)| >= |later[0].media.segments| > 0; }
        }
        Ok(Media(segs, Ceil(MaxDuration(segs)), ms[0].media.attributes))
  }

  lemma MergeSegments(bw: nat, ms: seq<Member>)
    requires ms != [] && Merge(bw, ms).Ok?
    ensures AllNonEmpty(ms[1..])
    ensures Merge(bw, ms).value.segments == ms[0].media.segments + ms[0].media.segments + Joined(ms[1..])
  {
  }

  lemma MergeIntendedSegments(bw: nat, ms: seq<Member>)
    requires ms != [] && MergeIntended(bw, ms).Ok?
    ensures AllNonEmpty(ms[1..])
    ensures MergeIntended(bw, ms).value.segments == ms[0].media.segments + Joined(ms[1..])
  {
  }

  lemma {:induction false} JoinedAt(ms: seq<Member>, j: nat, p: nat)
    requires AllNonEmpty(ms) && j < |ms| && p < |ms[j].media.segments|
    ensures SegmentCount(ms[..j]) + p < |Joined(ms)|
    ensures Joined(ms)[SegmentCount(ms[..j]) + p]
            == if p == 0 then ms[j].media.segments[0].(discontinuity := true) else ms[j].media.segments[p]
    decreases j
  {
    TailNonEmpty(ms);
    var head := MarkFirst(ms[0].media.segments);
    var tail := Joined(ms[1..]);
    assert Joined(ms) == head + tail;
    if j == 0 {
      assert SegmentCount(ms[..0]) == 0 by {
        assert ms[..0] == [];
      }
      MarkFirstAt(ms[0].media.segments, p);
    } else {
      assert ms[1..][j - 1] == ms[j];
      var c := SegmentCount(ms[1..][..j - 1]);
      assert c + p < |tail| && tail[c + p]
             == if p == 0 then ms[j].media.segments[0].(discontinuity := true) else ms[j].media.segments[p] by {
        JoinedAt(ms[1..], j - 1, p);
      }
      assert SegmentCount(ms[..j]) == |head| + c by {
        assert ms[..j] == [ms[0]] + ms[1..][..j - 1];
      }
    }
  }

  lemma MarkFirstAt(segs: seq<Segment>, p: nat)
    requires p < |segs|
    ensures MarkFirst(segs)[p] == if p == 0 then segs[0].(discontinuity := true) else segs[p]
  {
  }

  lemma TailNonEmpty(ms: seq<Member>)
    requires AllNonEmpty(ms) && ms != []
    ensures AllNonEmpty(ms[1..])
  {
    forall i | 0 <= i < |ms[1..]| ensures ms[1..][i].media.segments != [] {
      assert ms[1..][i] == ms[i + 1];
    }
  }

  /** Where the playlist of later member `i` starts in the merged list: after the
      first playlist twice and every later playlist before `i`. */
  function Start(ms: seq<Member>, i: nat): nat
    requires 1 <= i <= |ms|
  {
    2 * |ms[0].media.segments| + SegmentCount(ms[1..i])
  }

  /** Position `p` of later member `i`'s playlist sits at `Start(ms, i) + p`,
      the first one flagged as a discontinuity. */
  ghost predicate PlacedAt(ms: seq<Member>, segs: seq<Segment>, i: nat, p: nat)
    requires 1 <= i < |ms| && p < |ms[i].media.segments|
  {
    && Start(ms, i) + p < |segs|
    && segs[Start(ms, i) + p]
       == if p == 0 then ms[i].media.segments[0].(discontinuity := true) else ms[i].media.segments[p]
  }

  ghost predicate LaterPlaced(ms: seq<Member>, segs: seq<Segment>)
  {
    forall i, p :: 1 <= i < |ms| && 0 <= p < |ms[i].media.segments| ==> PlacedAt(ms, segs, i, p)
  }

  /** The first playlist fills positions `0..|s0|` and again `|s0|..2|s0|`. */
  ghost predicate FirstTwice(s0: seq<Segment>, segs: seq<Segment>)
  {
    && 2 * |s0| <= |segs|
    && forall p :: 0 <= p < |s0| ==> segs[p] == s0[p] && segs[|s0| + p] == s0[p]
  }

  /** Position by position: the first playlist, the first playlist again, then
      each later playlist unchanged except that its first segment is flagged as a
      discontinuity. */
  ghost predicate LayoutAsWritten(ms: seq<Member>, segs: seq<Segment>)
    requires ms != []
  {
    && |segs| == Start(ms, |ms|)
    && FirstTwice(ms[0].media.segments, segs)
    && LaterPlaced(ms, segs)
  }

  lemma MergeLayout(bw: nat, ms: seq<Member>)
    requires ms != [] && Merge(bw, ms).Ok?
    ensures LayoutAsWritten(ms, Merge(bw, ms).value.segments)
  {
    MergeSegments(bw, ms);
    var segs := Merge(bw, ms).value.segments;
    assert |segs| == Start(ms, |ms|) by {
      assert ms[1..|ms|] == ms[1..];
    }
    FirstTwiceOfDoubled(ms[0].media.segments, Joined(ms[1..]));
    LaterPlacedOfJoin(ms, segs);
  }

  lemma FirstTwiceOfDoubled(s0: seq<Segment>, rest: seq<Segment>)
    ensures FirstTwice(s0, s0 + s0 + rest)
  {
    forall p | 0 <= p < |s0| ensures (s0 + s0 + rest)[p] == s0[p] && (s0 + s0 + rest)[|s0| + p] == s0[p] {
      DoubledAt(s0, rest, p);
    }
  }

  lemma LaterPlacedOfJoin(ms: seq<Member>, segs: seq<Segment>)
    requires ms != [] && AllNonEmpty(ms[1..])
    requires segs == ms[0].media.segments + ms[0].media.segments + Joined(ms[1..])
    ensures LaterPlaced(ms, segs)
  {
    forall i, p | 1 <= i < |ms| && 0 <= p < |ms[i].media.segments| ensures PlacedAt(ms, segs, i, p) {
      LaterAt(ms, segs, i, p);
    }
  }

  /** Sequence identity kept apart from its caller: stated inline, inside the
      quantified layout proof, it costs the solver far more. */
  lemma DoubledAt(s0: seq<Segment>, rest: seq<Segment>, p: nat)
    requires p < |s0|
    ensures (s0 + s0 + rest)[p] == s0[p] && (s0 + s0 + rest)[|s0| + p] == s0[p]
  {
  }

  lemma LaterAt(ms: seq<Member>, segs: seq<Segment>, i: nat, p: nat)
    requires ms != [] && AllNonEmpty(ms[1..])
    requires segs == ms[0].media.segments + ms[0].media.segments + Joined(ms[1..])
    requires 1 <= i < |ms| && p < |ms[i].media.segments|
    ensures PlacedAt(ms, segs, i, p)
  {
    var later := ms[1..];
    assert later[i - 1] == ms[i];
    assert later[..i - 1] == ms[1..i];
    JoinedAt(later, i - 1, p);
  }

  /** The fold as evidently intended: each playlist appears once, in member order. */
  function MergeIntended(bw: nat, ms: seq<Member>): (r: Result<Media, Error>)
    requires ms != []
    ensures r.Ok? <==> AllNonEmpty(ms[1..]) && (ms[0].media.segments != [] || |ms| > 1)
    ensures r.Ok? ==> TargetCovers(r.value)
    ensures r.Ok? ==> r.value.attributes == ms[0].media.attributes
    ensures r.Ok? ==> |r.value.segments| == SegmentCount(ms)
    ensures r.Ok? ==> TotalDuration(r.value.segments) == SumOfTotals(ms)
  {
    var later := ms[1..];
    match FirstEmpty(later)
    case Some(j) => Err(NoFirstSegment(bw, j + 1))
    case None =>
      var s0 := ms[0].media.segments;
      var segs := s0 + Joined(later);
      TotalDurationAppend(s0, Joined(later));
      if segs == [] then Err(NoSegments(bw))
      else
        assert later != [] ==> Joined(later) != [] by {
          if later != [] { assert |Joined(later)| >= |later[0].media.segments| > 0; }
        }
        Ok(Media(segs, Ceil(MaxDuration(segs)), ms[0].media.attributes))
  }

  /** The two folds fail on the same inputs; where they succeed, the one as
      written is the intended one with the first playlist put in front once more,
      and the target duration does not change. */
  lemma MergeRepeatsFirstPlaylist(bw: nat, ms: seq<Member>)
    requires ms != []
    ensures Merge(bw, ms).Ok? <==> MergeIntended(bw, ms).Ok?
    ensures Merge(bw, ms).Ok? ==>
              && Merge(bw, ms).value.segments == ms[0].media.segments + MergeIntended(bw, ms).value.segments
              && Merge(bw, ms).value.targetDuration == MergeIntended(bw, ms).value.targetDuration
  {
    if Merge(bw, ms).Ok? {
      var a := Merge(bw, ms).value;
      var b := MergeIntended(bw, ms).value;
      var s0 := ms[0].media.segments;
      MergeSegments(bw, ms);
      MergeIntendedSegments(bw, ms);
      assert a.segments == s0 + b.segments;
      assert Durations(a.segments) == Durations(b.segments) by {
        assert b.segments[..|s0|] == s0;
        DurationsOfRepeat(s0, b.segments);
      }
      TargetCoversUnique(a, b);
    }
  }

  /** Putting a copy of a list's own prefix in front adds no new duration. */
  lemma DurationsOfRepeat(s0: seq<Segment>, t: seq<Segment>)
    requires |s0| <= |t| && t[..|s0|] == s0
    ensures Durations(s0 + t) == Durations(t)
  {
    var a := s0 + t;
    forall d | d in Durations(a) ensures d in Durations(t) {
      var p :| 0 <= p < |a| && a[p].duration == d;
      if p < |s0| {
        assert t[p] == s0[p] == a[p];
      } else {
        assert t[p - |s0|] == a[p];
      }
    }
    forall d | d in Durations(t) ensures d in Durations(a) {
      var q :| 0 <= q < |t| && t[q].duration == d;
      assert a[q + |s0|] == t[q];
    }
  }

  ghost function Durations(segs: seq<Segment>): set<real>
  {
    set p | 0 <= p < |segs| :: segs[p].duration
  }

  /** The target duration is determined by the set of durations present. */
  lemma TargetCoversUnique(a: Media, b: Media)
    requires TargetCovers(a) && TargetCovers(b)
    requires Durations(a.segments) == Durations(b.segments)
    ensures a.targetDuration == b.targetDuration
  {
    var pa :| 0 <= pa < |a.segments| && (a.targetDuration - 1) as real < a.segments[pa].duration;
    assert a.segments[pa].duration in Durations(b.segments);
    var qa :| 0 <= qa < |b.segments| && b.segments[qa].duration == a.segments[pa].duration;
    var qb :| 0 <= qb < |b.segments| && (b.targetDuration - 1) as real < b.segments[qb].duration;
    assert b.segments[qb].duration in Durations(a.segments);
    var pb :| 0 <= pb < |a.segments| && a.segments[pb].duration == b.segments[qb].duration;
  }
}

=== FILE: vod.dfy ===
/** `HLSVod` (src/index.ts:17-113): one merge run over already-loaded sources and
    the accessors over its result. */
module Vod {
  import opened Wrappers
  import opened Model
  import opened Resolve
  import opened Buckets
  import opened Timeline
  import Text

  /** Which validation and fold the finishing pass applies: the code as written,
      or the evidently intended one (each source exactly once, first playlist once). */
  datatype Policy = AsWritten | Intended

  /** The state `concat` leaves behind: `this.variants` and `this.streams`. */
  datatype Vod = Vod(variants: map<nat, Media>, streams: seq<StreamItem>)

  /** Line 99: the URI a surviving stream is renamed to. Its middle part is a
      decimal numeral that reads back to the bandwidth. */
  function ManifestName(bw: nat): (s: string)
    ensures |s| > 14 && s[..9] == "manifest_" && s[|s| - 5..] == ".m3u8"
    ensures AllDigits(s[9..|s| - 5]) && ParseDecimal(s[9..|s| - 5]) == bw
  {
    var d := Decimal(bw);
    var s := "manifest_" + d + ".m3u8";
    assert s[9..|s| - 5] == d;
    ParseDecimalOfDecimal(bw);
    s
  }

  /** Different surviving bandwidths never share a variant playlist name. */
  lemma ManifestNameInjective(a: nat, b: nat)
    ensures ManifestName(a) == ManifestName(b) <==> a == b
  {
    if ManifestName(a) == ManifestName(b) {
      var da := Decimal(a);
      var db := Decimal(b);
      assert |da| == |db| by {
        assert |ManifestName(a)| == 9 + |da| + 5;
        assert |ManifestName(b)| == 9 + |db| + 5;
      }
      assert da == ManifestName(a)[9..9 + |da|];
      assert db == ManifestName(b)[9..9 + |db|];
      DecimalInjective(a, b);
    }
  }

  /** Line 91 keeps a bucket whose size is the number of sources; the intended
      check also demands exactly one member per source, in source order. As
      written, the size alone decides, whichever sources the members come from. */
  predicate Survives(policy: Policy, ms: seq<Member>, n: nat): (r: bool)
    ensures r ==> |ms| == n
    ensures policy == AsWritten && |ms| == n ==> r
    ensures policy == Intended && r ==>
              forall i, j :: 0 <= i < j < |ms| ==> ms[i].source < ms[j].source < n
    ensures policy == Intended ==>
              (r <==> |ms| == n && forall i :: 0 <= i < |ms| ==> ms[i].source == i)
  {
    match policy
    case AsWritten => |ms| == n
    case Intended => |ms| == n && forall i :: 0 <= i < |ms| ==> ms[i].source == i
  }

  function MergeBy(policy: Policy, bw: nat, ms: seq<Member>): Result<Media, Error>
    requires ms != []
  {
    match policy
    case AsWritten => Merge(bw, ms)
    case Intended => MergeIntended(bw, ms)
  }

  /** Every bucket holds at least its seed. */
  ghost predicate NonEmptyBuckets(b: Buckets)
  {
    forall k :: k in b ==> b[k] != []
  }

  /** The stream a surviving bucket contributes (lines 99-100). */
  function Renamed(b: Buckets, k: nat): StreamItem
    requires k in b && b[k] != []
  {
    b[k][0].stream.(uri := ManifestName(k))
  }

  /** Lines 90-112 over the keys `ks`, visited in ascending order: a bucket that
      fails validation is dropped, a surviving one is merged and its first
      member's stream is renamed and listed. */
  function Finish(policy: Policy, b: Buckets, n: nat, ks: seq<nat>): (r: Result<Vod, Error>)
    requires NonEmptyBuckets(b)
    requires forall i :: 0 <= i < |ks| ==> ks[i] in b
    ensures r.Ok? ==> forall k :: k in r.value.variants <==> k in ks && Survives(policy, b[k], n)
    decreases |ks|
  {
    if ks == [] then Ok(Vod(map[], []))
    else
      var init := ks[..|ks| - 1];
      var k := ks[|ks| - 1];
      assert ks == init + [k];
      var v :- Finish(policy, b, n, init);
      if !Survives(policy, b[k], n) then Ok(v)
      else
        var md :- MergeBy(policy, k, b[k]);
        Ok(Vod(v.variants[k := md], v.streams + [Renamed(b, k)]))
  }

  lemma FinishStep(policy: Policy, b: Buckets, n: nat, ks: seq<nat>)
    requires NonEmptyBuckets(b)
    requires forall i :: 0 <= i < |ks| ==> ks[i] in b
    requires ks != [] && Finish(policy, b, n, ks).Ok?
    ensures Finish(policy, b, n, ks[..|ks| - 1]).Ok?
    ensures var v := Finish(policy, b, n, ks[..|ks| - 1]).value;
            var k := ks[|ks| - 1];
            Finish(policy, b, n, ks).value
            == if Survives(policy, b[k], n)
               then Vod(v.variants[k := MergeBy(policy, k, b[k]).value], v.streams + [Renamed(b, k)])
               else v
  {
  }

  lemma FinishStepShape(policy: Policy, b: Buckets, n: nat, ks: seq<nat>)
    requires NonEmptyBuckets(b)
    requires forall i :: 0 <= i < |ks| ==> ks[i] in b
    requires ks != [] && Finish(policy, b, n, ks).Ok?
    ensures Finish(policy, b, n, ks[..|ks| - 1]).Ok?
    ensures var u := Finish(policy, b, n, ks[..|ks| - 1]).value;
            var v := Finish(policy, b, n, ks).value;
            var k := ks[|ks| - 1];
            if Survives(policy, b[k], n)
            then v.variants.Keys == u.variants.Keys + {k} && v.streams == u.streams + [Renamed(b, k)]
            else v == u
  {
    FinishStep(policy, b, n, ks);
  }

  /** Every surviving bucket among `ks` merges without throwing. */
  ghost predicate AllMerge(policy: Policy, b: Buckets, n: nat, ks: seq<nat>)
    requires NonEmptyBuckets(b)
    requires forall i :: 0 <= i < |ks| ==> ks[i] in b
  {
    forall i :: 0 <= i < |ks| && Survives(policy, b[ks[i]], n) ==> MergeBy(policy, ks[i], b[ks[i]]).Ok?
  }

  /** The pass fails exactly when some surviving bucket's fold throws. */
  lemma {:induction false} FinishFails(policy: Policy, b: Buckets, n: nat, ks: seq<nat>)
    requires NonEmptyBuckets(b)
    requires forall i :: 0 <= i < |ks| ==> ks[i] in b
    ensures Finish(policy, b, n, ks).Ok? <==> AllMerge(policy, b, n, ks)
    decreases |ks|
  {
    if ks != [] {
      var init := ks[..|ks| - 1];
      FinishFails(policy, b, n, init);
      FinishOkStep(policy, b, n, ks);
      AllMergeStep(policy, b, n, ks);
    }
  }

  lemma FinishOkStep(policy: Policy, b: Buckets, n: nat, ks: seq<nat>)
    requires NonEmptyBuckets(b)
    requires forall i :: 0 <= i < |ks| ==> ks[i] in b
    requires ks != []
    ensures var k := ks[|ks| - 1];
            Finish(policy, b, n, ks).Ok?
            <==> Finish(policy, b, n, ks[..|ks| - 1]).Ok? && (Survives(policy, b[k], n) ==> MergeBy(policy, k, b[k]).Ok?)
  {
  }

  lemma AllMergeStep(policy: Policy, b: Buckets, n: nat, ks: seq<nat>)
    requires NonEmptyBuckets(b)
    requires forall i :: 0 <= i < |ks| ==> ks[i] in b
    requires ks != []
    ensures var k := ks[|ks| - 1];
            AllMerge(policy, b, n, ks)
            <==> AllMerge(policy, b, n, ks[..|ks| - 1]) && (Survives(policy, b[k], n) ==> MergeBy(policy, k, b[k]).Ok?)
  {
    var init := ks[..|ks| - 1];
    assert forall i :: 0 <= i < |init| ==> init[i] == ks[i];
  }

  /** Each surviving bandwidth maps to its bucket's merged playlist. */
  lemma {:induction false} FinishMerges(policy: Policy, b: Buckets, n: nat, ks: seq<nat>)
    requires NonEmptyBuckets(b)
    requires forall i :: 0 <= i < |ks| ==> ks[i] in b
    requires StrictlyAscending(ks)
    requires Finish(policy, b, n, ks).Ok?
    ensures var v := Finish(policy, b, n, ks).value;
            forall k :: k in v.variants ==> MergeBy(policy, k, b[k]) == Ok(v.variants[k])
    decreases |ks|
  {
    if ks != [] {
      var init := ks[..|ks| - 1];
      assert forall i :: 0 <= i < |init| ==> init[i] == ks[i] && ks[i] < ks[|ks| - 1];
      FinishMerges(policy, b, n, init);
      FinishStep(policy, b, n, ks);
    }
  }

  /** `streams[j]` is the renamed first stream of the bucket `keys[j]`. */
  ghost predicate StreamsMatch(b: Buckets, keys: seq<nat>, streams: seq<StreamItem>)
  {
    && |streams| == |keys|
    && forall j :: 0 <= j < |keys| ==> keys[j] in b && b[keys[j]] != [] && streams[j] == Renamed(b, keys[j])
  }

  lemma StreamsMatchExtend(b: Buckets, keys: seq<nat>, streams: seq<StreamItem>, k: nat)
    requires StreamsMatch(b, keys, streams) && k in b && b[k] != []
    ensures StreamsMatch(b, keys + [k], streams + [Renamed(b, k)])
  {
    var keys' := keys + [k];
    var streams' := streams + [Renamed(b, k)];
    forall j | 0 <= j < |keys'|
      ensures keys'[j] in b && b[keys'[j]] != [] && streams'[j] == Renamed(b, keys'[j])
    {
      if j < |keys| {
        assert keys'[j] == keys[j] && streams'[j] == streams[j];
      }
    }
  }

  /** The stream list follows the surviving bandwidths in ascending order. */
  lemma {:induction false} FinishStreams(policy: Policy, b: Buckets, n: nat, ks: seq<nat>)
    requires NonEmptyBuckets(b)
    requires forall i :: 0 <= i < |ks| ==> ks[i] in b
    requires StrictlyAscending(ks)
    requires Finish(policy, b, n, ks).Ok?
    ensures var v := Finish(policy, b, n, ks).value;
            StreamsMatch(b, SortedKeys(v.variants.Keys), v.streams)
    decreases |ks|
  {
    if ks != [] {
      var init := ks[..|ks| - 1];
      var k := ks[|ks| - 1];
      assert forall i :: 0 <= i < |init| ==> init[i] == ks[i] && ks[i] < k;
      FinishStreams(policy, b, n, init);
      FinishStepShape(policy, b, n, ks);
      var u := Finish(policy, b, n, init).value;
      if Survives(policy, b[k], n) {
        assert forall y :: y in u.variants.Keys ==> y < k;
        SortedKeysAddLargest(u.variants.Keys, k);
        StreamsMatchExtend(b, SortedKeys(u.variants.Keys), u.streams, k);
      }
    }
  }

  /** The buckets of a run, when bucketing did not throw. */
  function BucketsOf(sources: seq<Source>, fetch: string -> Media): (b: Buckets)
    requires Align(LoadAll(sources, fetch)).Ok?
    ensures NonEmptyBuckets(b)
  {
    var loaded := LoadAll(sources, fetch);
    var b := Align(loaded).value;
    assert NonEmptyBuckets(b) by {
      if loaded != [] {
        forall k | k in b ensures b[k] != [] {
          AlignShape(loaded, k);
        }
      }
    }
    b
  }

  /** Lines 64-113 on a fresh instance, under the given policy. */
  function Run(policy: Policy, sources: seq<Source>, fetch: string -> Media): (r: Result<Vod, Error>)
    ensures Align(LoadAll(sources, fetch)).Err? ==> r.Err?
    ensures r.Ok? ==> Align(LoadAll(sources, fetch)).Ok?
    ensures r.Ok? ==> var b := BucketsOf(sources, fetch);
                      forall k :: k in r.value.variants <==> k in b && Survives(policy, b[k], |sources|)
  {
    var loaded := LoadAll(sources, fetch);
    if Align(loaded).Err? then Err(Align(loaded).error)
    else
      var b := BucketsOf(sources, fetch);
      Finish(policy, b, |sources|, SortedKeys(b.Keys))
  }

  /** What a successful run leaves: the surviving bandwidths, their merged
      playlists and the renamed stream list, all in terms of the buckets. */
  lemma RunFacts(policy: Policy, sources: seq<Source>, fetch: string -> Media)
    requires Run(policy, sources, fetch).Ok?
    ensures Align(LoadAll(sources, fetch)).Ok?
    ensures var b := BucketsOf(sources, fetch);
            var v := Run(policy, sources, fetch).value;
            && (forall k :: k in v.variants <==> k in b && Survives(policy, b[k], |sources|))
            && (forall k :: k in v.variants ==> MergeBy(policy, k, b[k]) == Ok(v.variants[k]))
            && StreamsMatch(b, SortedKeys(v.variants.Keys), v.streams)
  {
    RunIsFinish(policy, sources, fetch);
    var b := BucketsOf(sources, fetch);
    var ks := SortedKeys(b.Keys);
    var n := |sources|;
    var v := Finish(policy, b, n, ks).value;
    assert forall k :: k in v.variants <==> k in b && Survives(policy, b[k], n) by {
      forall k ensures k in v.variants <==> k in b && Survives(policy, b[k], n) {
        assert k in b <==> k in ks;
      }
    }
    FinishMerges(policy, b, n, ks);
    FinishStreams(policy, b, n, ks);
  }

  lemma RunIsFinish(policy: Policy, sources: seq<Source>, fetch: string -> Media)
    requires Run(policy, sources, fetch).Ok? || Align(LoadAll(sources, fetch)).Ok?
    ensures Align(LoadAll(sources, fetch)).Ok?
    ensures var b := BucketsOf(sources, fetch);
            Run(policy, sources, fetch) == Finish(policy, b, |sources|, SortedKeys(b.Keys))
  {
  }

  /** A run throws exactly when bucketing throws or a surviving bucket's fold does. */
  lemma RunFails(policy: Policy, sources: seq<Source>, fetch: string -> Media)
    ensures Run(policy, sources, fetch).Ok?
            <==> && Align(LoadAll(sources, fetch)).Ok?
                 && var b := BucketsOf(sources, fetch);
                    forall k :: k in b && Survives(policy, b[k], |sources|) ==> MergeBy(policy, k, b[k]).Ok?
  {
    if Align(LoadAll(sources, fetch)).Ok? {
      RunIsFinish(policy, sources, fetch);
      var b := BucketsOf(sources, fetch);
      var ks := SortedKeys(b.Keys);
      FinishFails(policy, b, |sources|, ks);
      AllMergeKeys(policy, b, |sources|);
    }
  }

  /** Over the ascending key list, `AllMerge` speaks of every bucket. */
  lemma AllMergeKeys(policy: Policy, b: Buckets, n: nat)
    requires NonEmptyBuckets(b)
    ensures var ks := SortedKeys(b.Keys);
            AllMerge(policy, b, n, ks)
            <==> forall k :: k in b && Survives(policy, b[k], n) ==> MergeBy(policy, k, b[k]).Ok?
  {
    var ks := SortedKeys(b.Keys);
    if AllMerge(policy, b, n, ks) {
      forall k | k in b && Survives(policy, b[k], n) ensures MergeBy(policy, k, b[k]).Ok? {
        AllMergeAt(policy, b, n, k);
      }
    }
  }

  /** Every bucket key has its place in the ascending key list. */
  lemma AllMergeAt(policy: Policy, b: Buckets, n: nat, k: nat)
    requires NonEmptyBuckets(b)
    requires AllMerge(policy, b, n, SortedKeys(b.Keys))
    requires k in b && Survives(policy, b[k], n)
    ensures MergeBy(policy, k, b[k]).Ok?
  {
    var ks := SortedKeys(b.Keys);
    assert k in ks;
    var i :| 0 <= i < |ks| && ks[i] == k;
  }

  lemma LoadAllTagged(sources: seq<Source>, fetch: string -> Media)
    ensures Tagged(LoadAll(sources, fetch))
  {
    var loaded: seq<seq<Member>> := LoadAll(sources, fetch);
    forall i: nat, j: nat | i < |loaded| && j < |loaded[i]| ensures loaded[i][j].source == i {
      LoadSourceResolves(i, sources[i], fetch, j);
    }
  }

  /** A bucket key is a bandwidth the first source offers. */
  lemma BucketKeyFromFirstSource(sources: seq<Source>, fetch: string -> Media, k: nat)
    requires Align(LoadAll(sources, fetch)).Ok? && k in BucketsOf(sources, fetch)
    ensures |sources| > 0
    ensures exists j :: 0 <= j < |sources[0].streams| && sources[0].streams[j].bandwidth == k
  {
    var loaded := LoadAll(sources, fetch);
    assert k in Bandwidths(loaded[0]);
    var j :| 0 <= j < |loaded[0]| && loaded[0][j].stream.bandwidth == k;
    LoadSourceResolves(0, sources[0], fetch, j);
  }

  /** `concat` as written (src/index.ts:64-113) on a fresh instance: the surviving
      bandwidths are the buckets holding one member per source, counted. */
  function Concat(sources: seq<Source>, fetch: string -> Media): (r: Result<Vod, Error>)
    ensures Align(LoadAll(sources, fetch)).Err? ==> r.Err?
    ensures r.Ok? ==> var b := BucketsOf(sources, fetch);
                      forall k :: k in r.value.variants <==> k in b && |b[k]| == |sources|
  {
    Run(AsWritten, sources, fetch)
  }

  /** Surviving bandwidths are bandwidths the first source offers. */
  lemma ConcatKeysFromFirstSource(sources: seq<Source>, fetch: string -> Media)
    requires Concat(sources, fetch).Ok?
    ensures forall k :: k in Concat(sources, fetch).value.variants ==>
              |sources| > 0 && exists j :: 0 <= j < |sources[0].streams| && sources[0].streams[j].bandwidth == k
  {
    RunFacts(AsWritten, sources, fetch);
    forall k | k in Concat(sources, fetch).value.variants
      ensures |sources| > 0 && exists j :: 0 <= j < |sources[0].streams| && sources[0].streams[j].bandwidth == k
    {
      BucketKeyFromFirstSource(sources, fetch, k);
    }
  }

  /** The stream list `getMultiVariant` returns names the surviving bandwidths in
      ascending order, each renamed to its variant playlist (lines 99-100). */
  lemma ConcatStreams(sources: seq<Source>, fetch: string -> Media)
    requires Concat(sources, fetch).Ok?
    ensures var v := Concat(sources, fetch).value;
            var keys := SortedKeys(v.variants.Keys);
            var r := GetMultiVariant(v);
            && |r| == |keys|
            && forall j :: 0 <= j < |keys| ==> r[j].bandwidth == keys[j] && r[j].uri == ManifestName(keys[j])
  {
    RunFacts(AsWritten, sources, fetch);
    var v := Concat(sources, fetch).value;
    var keys := SortedKeys(v.variants.Keys);
    forall j | 0 <= j < |keys| ensures v.streams[j].bandwidth == keys[j] && v.streams[j].uri == ManifestName(keys[j]) {
      AlignShape(LoadAll(sources, fetch), keys[j]);
    }
  }

  /** Every merged playlist's target duration covers all of its segments (line 108). */
  lemma ConcatTargetsCover(sources: seq<Source>, fetch: string -> Media)
    requires Concat(sources, fetch).Ok?
    ensures forall k :: k in Concat(sources, fetch).value.variants ==> TargetCovers(Concat(sources, fetch).value.variants[k])
  {
    RunFacts(AsWritten, sources, fetch);
    var b := BucketsOf(sources, fetch);
    var v := Concat(sources, fetch).value;
    forall k | k in v.variants ensures TargetCovers(v.variants[k]) {
      assert Merge(k, b[k]) == Ok(v.variants[k]);
    }
  }

  /** A bandwidth survives exactly when its bucket's member count equals the
      number of sources (line 91), and its variant is that bucket's merged playlist. */
  lemma ConcatSurvivors(sources: seq<Source>, fetch: string -> Media, k: nat)
    requires Concat(sources, fetch).Ok?
    ensures Align(LoadAll(sources, fetch)).Ok?
    ensures var b := BucketsOf(sources, fetch);
            var v := Concat(sources, fetch).value;
            && (k in v.variants <==> k in b && |b[k]| == |sources|)
            && (k in v.variants ==> Merge(k, b[k]) == Ok(v.variants[k]))
  {
    RunFacts(AsWritten, sources, fetch);
  }

  /** `concat` throws exactly when a later rendition finds no bucket or a
      surviving bucket's fold throws. */
  lemma ConcatFails(sources: seq<Source>, fetch: string -> Media)
    ensures Concat(sources, fetch).Err?
            <==> || Align(LoadAll(sources, fetch)).Err?
                 || var b := BucketsOf(sources, fetch);
                    exists k :: k in b && |b[k]| == |sources| && Merge(k, b[k]).Err?
  {
    RunFails(AsWritten, sources, fetch);
  }

  /** `getVariant` (lines 41-43): the merged playlist of a surviving bandwidth. */
  function GetVariant(v: Vod, bw: nat): (r: Option<Media>)
    ensures r.Some? <==> bw in v.variants
    ensures r.Some? ==> r.value == v.variants[bw]
  {
    if bw in v.variants then Some(v.variants[bw]) else None
  }

  /** `getVariant` finds a playlist exactly for the bandwidths that survived:
      one the first source does not offer, or whose bucket was dropped, is absent. */
  lemma GetVariantPresence(sources: seq<Source>, fetch: string -> Media, bw: nat)
    requires Concat(sources, fetch).Ok?
    ensures Align(LoadAll(sources, fetch)).Ok?
    ensures var b := BucketsOf(sources, fetch);
            GetVariant(Concat(sources, fetch).value, bw).Some? <==> bw in b && |b[bw]| == |sources|
    ensures (|sources| == 0 || forall j :: 0 <= j < |sources[0].streams| ==> sources[0].streams[j].bandwidth != bw)
            ==> GetVariant(Concat(sources, fetch).value, bw) == None
  {
    ConcatSurvivors(sources, fetch, bw);
  }

  /** `getBandwidths` (lines 45-47): `Object.keys(this.variants)`, the surviving
      bandwidths as decimal strings in ascending numeric order. */
  function GetBandwidths(v: Vod): (r: seq<string>)
    ensures |r| == |v.variants|
  {
    var keys := SortedKeys(v.variants.Keys);
    seq(|keys|, j requires 0 <= j < |keys| => Decimal(keys[j]))
  }

  /** The listed strings are decimal numerals that read back to exactly the
      surviving bandwidths, each once, in ascending order. */
  lemma GetBandwidthsListsVariants(v: Vod)
    ensures var r := GetBandwidths(v);
            && (forall i :: 0 <= i < |r| ==> AllDigits(r[i]))
            && (forall i :: 0 <= i < |r| ==> ParseDecimal(r[i]) in v.variants)
            && (forall i, j :: 0 <= i < j < |r| ==> ParseDecimal(r[i]) < ParseDecimal(r[j]))
            && (forall k :: k in v.variants <==> Decimal(k) in r)
  {
    DecimalListed(v.variants.Keys, SortedKeys(v.variants.Keys), GetBandwidths(v));
  }

  /** A strictly ascending listing of a key set, written out in decimal, reads back
      to that set in the same order. */
  lemma DecimalListed(s: set<nat>, keys: seq<nat>, r: seq<string>)
    requires StrictlyAscending(keys) && forall k :: k in keys <==> k in s
    requires |r| == |keys| && forall j :: 0 <= j < |keys| ==> r[j] == Decimal(keys[j])
    ensures forall i :: 0 <= i < |r| ==> AllDigits(r[i])
    ensures forall i :: 0 <= i < |r| ==> ParseDecimal(r[i]) in s
    ensures forall i, j :: 0 <= i < j < |r| ==> ParseDecimal(r[i]) < ParseDecimal(r[j])
    ensures forall k :: k in s <==> Decimal(k) in r
  {
    forall i | 0 <= i < |r| ensures ParseDecimal(r[i]) == keys[i] {
      ParseDecimalOfDecimal(keys[i]);
    }
    forall k ensures k in s <==> Decimal(k) in r {
      DecimalListedAt(s, keys, r, k);
    }
  }

  lemma DecimalListedAt(s: set<nat>, keys: seq<nat>, r: seq<string>, k: nat)
    requires forall k :: k in keys <==> k in s
    requires |r| == |keys| && forall j :: 0 <= j < |keys| ==> r[j] == Decimal(keys[j])
    ensures k in s <==> Decimal(k) in r
  {
    if Decimal(k) in r {
      var i :| 0 <= i < |r| && r[i] == Decimal(k);
      DecimalInjective(k, keys[i]);
    }
    if k in s {
      var i :| 0 <= i < |keys| && keys[i] == k;
      assert r[i] == Decimal(k);
    }
  }

  /** `getMultiVariant` (lines 49-51). */
  function GetMultiVariant(v: Vod): seq<StreamItem>
  {
    v.streams
  }

  /** The fixed header of the master playlist (lines 55-57). */
  const HeaderText: string := "#EXTM3U\n" + "#EXT-X-VERSION:3\n" + "#EXT-X-INDEPENDENT-SEGMENTS\n"

  /** The serialiser's text for each stream (its tag line and URI line), in list order. */
  function Rendered(streams: seq<StreamItem>, render: StreamItem -> string): seq<string>
  {
    seq(|streams|, j requires 0 <= j < |streams| => render(streams[j]))
  }

  /** `toString` (lines 53-62): the header, then each stream's text followed by a
      newline (lines 58-60). `render` stands for the serialiser's `item.toString()`. */
  function ToString(v: Vod, render: StreamItem -> string): (t: string)
    ensures |HeaderText| <= |t| && t[..|HeaderText|] == HeaderText
    ensures t[|t| - 1] == '\n'
  {
    var items := Rendered(GetMultiVariant(v), render);
    var body := Text.Blocks(items);
    assert (HeaderText + body)[..|HeaderText|] == HeaderText;
    assert (HeaderText + body)[|HeaderText + body| - 1] == '\n' by {
      if items != [] {
        Text.BlocksEndWithNewline(items);
      }
    }
    HeaderText + body
  }

  /** Position by position, the master playlist text is the header, then stream
      `j`'s text at the header length plus the lengths of the streams before it
      (each with its newline), each followed by a newline; nothing else follows,
      so the text always ends with a newline. */
  lemma ToStringLayout(v: Vod, render: StreamItem -> string)
    ensures var t := ToString(v, render);
            var items := Rendered(v.streams, render);
            && |HeaderText| <= |t| && t[..|HeaderText|] == HeaderText
            && |t| == |HeaderText| + Text.Offset(items, |items|)
            && t[|t| - 1] == '\n'
            && forall j :: 0 <= j < |v.streams| ==>
                 Text.BlockIn(t, |HeaderText| + Text.Offset(items, j), render(v.streams[j]))
  {
    var items := Rendered(v.streams, render);
    var body := Text.Blocks(items);
    var t := ToString(v, render);
    assert t == HeaderText + body;
    assert t[..|HeaderText|] == HeaderText;
    Text.BlocksLength(items);
    if items == [] {
      assert HeaderText[|HeaderText| - 1] == '\n';
    } else {
      Text.BlocksEndWithNewline(items);
    }
    forall j | 0 <= j < |v.streams|
      ensures Text.BlockIn(t, |HeaderText| + Text.Offset(items, j), render(v.streams[j]))
    {
      Text.BlockAt(items, j);
      Text.BlockInShift(HeaderText, body, Text.Offset(items, j), items[j]);
    }
  }
}

=== FILE: wrappers.dfy ===
/** Failure-compatible wrappers used throughout the model. */
module Wrappers {

  /** A value that may be absent: the model of a JavaScript property lookup that can yield `undefined`. */
  datatype Option<+T> = None | Some(value: T)

  /** The outcome of an operation that may throw: `Err` stands for the exception. */
  datatype Result<+T, +E> = Ok(value: T) | Err(error: E) {

    predicate IsFailure() {
      Err?
    }

    function PropagateFailure<U>(): Result<U, E>
      requires Err?
    {
      Err(error)
    }

    function Extract(): T
      requires Ok?
    {
      value
    }
  }
}
